=== FILE: README.md ===
# SEC Insights chat core in Dafny

This project models the decision logic of the SEC Insights chat backend and
proves properties of it. The backend answers questions about SEC filings
through a tool-using agent. Two source files make up the modelled core:

- `backend/app/chat/engine.py` covers several steps:
  - rebuilding the chat history from stored messages;
  - describing documents;
  - building the document-id → vector-index map, by loading it or by
    rebuilding it;
  - assembling the agent's tools, history and title text.
- `backend/app/chat/messaging.py` translates the agent's lifecycle events
  into sub-process records: citations, sub-question pairs and function
  outputs. It also streams one chat turn to the client's channel.

Everything is modelled as immutable datatypes and pure functions. The token
streaming loop is a method (`StreamAnswer`), and `HandleChatMessage`, the
method that calls it, hands the turn to it. The library collaborators are
function-typed parameters:

- the index loader;
- the per-document index builder;
- the title function;
- the agent's token stream.

The output channel is the returned sequence of records. Whether the channel
is closed is an input.

Modules:

| file | module | models |
|---|---|---|
| `wrappers.dfy` | `Wrappers` | `Option` and `Result` |
| `py_text.dfy` | `PyText` | Python `str.isspace`, `strip`, `str(int)`, `int(str)` in base 10, `join`, `split` and `s[:n]` |
| `py_dict.dfy` | `PyDict` | an insertion-ordered Python `dict` as a list of pairs with distinct keys, plus `zip` |
| `seqs.dfy` | `Seqs` | list-comprehension filtering, and subsequences |
| `chat_history.dfy` | `ChatHistory` | `get_chat_history` |
| `documents.dfy` | `Documents` | documents, SEC metadata and `build_description_for_document` |
| `index_map.dfy` | `IndexMap` | `build_doc_id_to_index_map` |
| `chat_engine.dfy` | `ChatEngine` | the tool, history and title assembly in `get_chat_engine` |
| `events.dfy` | `Events` | `get_metadata_from_event`, `async_on_event`, and the event kinds the handler ignores |
| `dispatcher.dfy` | `Dispatcher` | `handle_chat_message` |

Conventions:

- **Failures.** A loader that raises `ValueError` returns `None`. A document
  whose index cannot be built (fetching, reading, indexing or persisting it fails) gives `BuildFailed`. A missing `id_to_doc` key gives
  `MissingDocument`, and `GetChatEngine` proves that this never happens.
- **`closedAt`.** This input gives the step from which the send stream's own
  closed flag is set:
  - `Some(k)` with `k < |tokens|` means the check before snapshot `k` finds
    the stream closed;
  - `Some(|tokens|)` means the stream closes after the last snapshot but
    before the fallback send.
- **Missing payload.** An event whose payload is `None` makes the membership
  test at `messaging.py:76` raise `TypeError` inside the detached task. The
  model therefore sends nothing for it.
- **Stable sort.** `IsStableSortOf(w, s)` says three things: `w` is sorted by
  creation time, `w` is a permutation of `s`, and `w` lists the messages of
  each timestamp in the order of `s`. `StableSortUnique` proves that this
  determines `w`. `GetChatHistory` is therefore stated against every stable
  sort, not against the insertion sort that computes it.

## Model

| member | source | states |
|---|---|---|
| ChatHistory.EligibleMessages | backend/app/chat/engine.py:185-189 | keeps exactly the successful messages whose stripped content is non-empty, each as often as stored, as a subsequence of the input |
| ChatHistory.SortByCreatedAt | backend/app/chat/engine.py:191 | the result is sorted by `created_at`, is a permutation of the input, and keeps the input order within each timestamp (stability) |
| ChatHistory.StableSortUnique | backend/app/chat/engine.py:191 | two stable sorts of the same list are equal, so the stable-sort specification determines the result |
| ChatHistory.ToChatMessage | backend/app/chat/engine.py:195-200 | content is kept unchanged; the role is assistant exactly when the stored role is assistant, user otherwise |
| ChatHistory.GetChatHistory | backend/app/chat/engine.py:175-202 | the history has one entry per eligible message and equals the projection of every stable sort of the eligible messages |
| ChatHistory.ChatHistorySpec | backend/app/chat/engine.py:184-202 | every eligible stored message appears exactly as often as stored, no other does, in non-decreasing time with ties in stored order, each entry carrying its message's content and role |
| ChatHistory.HistoryIgnoresStoredOrder | backend/app/chat/engine.py:191 | when no two distinct eligible messages share a timestamp, reordering the stored messages does not change the history |
| ChatHistory.HistoryDependsOnStoredOrderOnTies | backend/app/chat/engine.py:191 | two messages with equal timestamps appear in stored order, so swapping them changes the history |
| PyText.Strip | backend/app/chat/engine.py:188 | `strip()` is empty exactly for blank text, and a non-empty result starts and ends with a non-space |
| PyText.ParseIntOfIntToString | backend/app/chat/messaging.py:89 | `int(str(n)) == n` for every integer the model converts; CPython's default limit of 4300 digits is not modelled (see Left out), so for integers of at most 4300 digits this is CPython's behaviour |
| PyText.ParseIntPaddedDigits | backend/app/chat/messaging.py:89 | `int` accepts surrounding whitespace: `" 12\n"` parses to 12 |
| PyText.ParseIntRejectsRoman | backend/app/chat/messaging.py:89 | `int("iv")` fails |
| PyText.ParseIntRejectsInfoSeparator | backend/app/chat/messaging.py:89 | `int` does not skip the information separators U+001C to U+001F, although `strip` removes them: `"\x1c3"` fails to parse |
| PyText.SplitJoin | backend/app/chat/engine.py:307-309 | splitting a newline-joined list of lines without newlines gives the lines back |
| Documents.TimePeriod | backend/app/chat/engine.py:95-99 | with a non-zero quarter the period is the year and `Q` plus the quarter, separated by a space; otherwise it is `str(year)`, which parses back to the year |
| Documents.BuildDescriptionForDocument | backend/app/chat/engine.py:90-101 | the generic sentence exactly when there is no SEC metadata; otherwise a sentence containing the filing type, the company name, the ticker in parentheses and the time period |
| Documents.SecDescriptionMentions | backend/app/chat/engine.py:100 | the SEC sentence contains the filing type, the company name, " ({ticker})" and "for the {period} time period.", and differs from the generic sentence |
| Documents.AcmeQuarterlyDescription | backend/app/chat/engine.py:95-100 | a 2023 Q1 filing of ACME is described with "ACME" and "2023 Q1" |
| PyDict.FromPairsLastWins | backend/app/chat/engine.py:150 | `dict(pairs)` maps each key to the value of its last pair |
| PyDict.AssignGet | backend/app/chat/engine.py:171 | after `d[k] = v`, `k` maps to `v` and every other key keeps its value |
| IndexMap.GetStorageContext | backend/app/chat/engine.py:133-143 | an existing storage context is used when found; a new one is created exactly when it is not |
| IndexMap.LoadIndexMap | backend/app/chat/engine.py:144-150 | the load path succeeds exactly when the loader does; its keys are distinct document ids, and all of them when the loader returns an index per id; each id maps to the index loaded at its position, for the last document with that id |
| IndexMap.LoadIndexMapIsZip | backend/app/chat/engine.py:144-150 | with distinct document ids the loaded map is `zip(ids, indices)` itself, entries in document order, and its key sequence is the document ids in order when the loader returns an index per id |
| IndexMap.RebuildIndexMap | backend/app/chat/engine.py:160-171 | the rebuild path succeeds exactly when every document builds; its keys are then exactly the document ids, without repetition |
| IndexMap.RebuildFrom | backend/app/chat/engine.py:161-171 | the first document whose index cannot be built ends the loop with that document's error; otherwise every document adds its id to the keys |
| IndexMap.RebuildIsComprehension | backend/app/chat/engine.py:160-171 | the rebuilt map is the dict of `(id, index)` pairs in document order, and exactly that list when the ids are distinct |
| IndexMap.BuildDocIdToIndexMap | backend/app/chat/engine.py:125-172 | a successful load is used as loaded, and a failed load falls back to the rebuild; so it fails exactly when the loader fails and some document's index cannot be built, naming the first such document; keys are distinct document ids on both paths |
| IndexMap.IndexMapKeysAreDocIds | backend/app/chat/engine.py:144-171 | the key set equals the document-id set on the rebuild path, and on the load path when the loader returns one index per id |
| ChatEngine.CitationTool | backend/app/chat/engine.py:220-245 | a citation tool is named by its doc id, described by the description of its own document, and retrieves only that document's chunks, 3 at a time, citing 512-character chunks |
| ChatEngine.CitationTools | backend/app/chat/engine.py:219-245 | one citation tool per index-map entry, in map order, over its index and its document; it fails with the missing key exactly when a key names no document |
| ChatEngine.CitationToolNames | backend/app/chat/engine.py:237-243 | the tools' names are the index map's keys, in order |
| ChatEngine.CitationToolNamesDistinct | backend/app/chat/engine.py:237-243 | tool names are pairwise distinct |
| ChatEngine.ApiTools | backend/app/chat/engine.py:259-264 | API tools exist only for SEC documents, in document order, each SEC document as often as it occurs |
| ChatEngine.TopLevelTools | backend/app/chat/engine.py:273-294 | exactly two tools, `qualitative_question_engine` then `quantitative_question_engine`, over the citation and API tools respectively, each with its own routing description (qualitative: headwinds, tailwinds, risks, sentiment; quantitative: financials and metrics) |
| ChatEngine.TopLevelToolsRoute | backend/app/chat/engine.py:273-294 | looking a top-level tool up by its name reaches the sub-question engine over the citation tools for `qualitative_question_engine` and over the API tools for `quantitative_question_engine` |
| ChatEngine.DocTitles | backend/app/chat/engine.py:306-311 | "No documents selected." exactly when there are no documents; when no title contains a newline, splitting the text at newlines gives one `"- " + title` line per document |
| ChatEngine.IdToDoc | backend/app/chat/engine.py:214-216 | the id-to-document map has exactly the document ids as keys, and each id maps to the last document carrying it |
| ChatEngine.GetChatEngine | backend/app/chat/engine.py:205-324 | fails exactly when the loader fails and some document's index cannot be built, with the first such document's error; otherwise the agent has the two fixed tools, the qualitative one over exactly the citation tools built from the index map and the id-to-document map (so each is configured as `CitationTool` states), with distinct names drawn from the document ids, the SEC API tools, at most 3 function calls, the chat history and the title text |
| ChatEngine.EveryDocumentHasCitationTool | backend/app/chat/engine.py:211-245 | every document has a citation tool named by its id whenever the index map covers every document |
| ChatEngine.EmptyConversation | backend/app/chat/engine.py:205-311 | a conversation without documents always gets an agent, with empty tool lists and "No documents selected." |
| Events.PyInt | backend/app/chat/messaging.py:89 | `int()` of a missing value fails, of an integer is that integer, and of text is `int(str)` as `ParseInt` models it, so blank text fails |
| Events.CitationFor | backend/app/chat/messaging.py:82-94 | a node yields a citation exactly when it has a document id and a page label that parses as an integer; the citation holds that id, the parsed page and the first `min(200, len)` characters of the node text |
| Events.ExtractCitationsSpec | backend/app/chat/messaging.py:81-95 | the citations are those of the citing nodes, one each, in node order |
| Events.ExtractCitationsAppend | backend/app/chat/messaging.py:82-94 | each node is judged on its own: extraction distributes over concatenation |
| Events.ExtractCitationsEmpty | backend/app/chat/messaging.py:82-97 | no citation is extracted exactly when no node cites; failing nodes are skipped without error |
| Events.GetMetadataFromEvent | backend/app/chat/messaging.py:71-122 | at most one entry; with a response key, the entry exists exactly when the response yields citations, pairing the placeholder question, `str(response)` and the citations; otherwise a sub-question event gets its pair, and a function-call event gets an entry exactly when its output is a string |
| Events.ResponseTakesPrecedence | backend/app/chat/messaging.py:76-119 | with a response key, neither the event kind nor any sub-question or function output changes the map, and no `sub_question` entry appears |
| Events.MetadataNonEmptyIff | backend/app/chat/messaging.py:76-119 | the map is non-empty exactly when the response has a citing node, or else the event is a sub-question with its pair, or a function call with a string output |
| Events.AsyncOnEvent | backend/app/chat/messaging.py:127-153 | one record exactly when the payload exists and the channel is open; it carries the event's source and id, `has_ended` is the negation of `is_start_event`, and the map is `None` exactly when empty |
| Events.OnEvent | backend/app/chat/messaging.py:39-69 | chunking and node-parsing events produce nothing; every other event produces the record of `async_on_event` |
| Events.StartAndEndRecordsPair | backend/app/chat/messaging.py:43-69 | the start and end records of an event, each with its own payload, share the source and event id; only the end has ended; each carries the map of its own payload, and with equal payloads they differ only in `has_ended` |
| Events.PagedNodeCites | backend/app/chat/messaging.py:85-92 | a node with a document id and a parsing page label cites that page and quotes a text of at most 200 characters whole |
| Events.PlainPageLabelCites | backend/app/chat/messaging.py:85-92 | a page label "3" cites page 3 with the node's text |
| Events.RomanPageLabelSkipped | backend/app/chat/messaging.py:86-94 | the roman-numeral page label "iv" yields no citation |
| Events.MissingPageLabelSkipped | backend/app/chat/messaging.py:85-97 | a node without a page label yields no citation, and a response with only such nodes leaves the map empty |
| Dispatcher.EngineMarker | backend/app/chat/messaging.py:175-181 | the marker comes from the constructed query engine, has ended, and carries no metadata |
| Dispatcher.TemplateShape | backend/app/chat/messaging.py:183-187 | templating keeps the reminder; a non-blank message follows it after a blank line with trailing whitespace removed, and a blank message leaves the reminder alone |
| Dispatcher.TemplatedMessageShape | backend/app/chat/messaging.py:183-187 | the same for the actual reminder line |
| Dispatcher.ConcatPrefix | backend/app/chat/messaging.py:191-199 | each accumulated text is a prefix of every later one |
| Dispatcher.BlankConcat | backend/app/chat/messaging.py:191-201 | the accumulated answer is blank exactly when every token is |
| Dispatcher.StreamAnswer | backend/app/chat/messaging.py:191-206 | marker first; snapshot `j` is the first `j` tokens; a closure found before snapshot `k` ends the turn with exactly `k` snapshots and no fallback; after the loop, the fallback is sent once, only for a blank answer, and its send raises when the stream is already closed |
| Dispatcher.StreamedAsChain | backend/app/chat/messaging.py:191-206 | the snapshots form a prefix chain, and the turn raises only over a blank answer on a closed stream |
| Dispatcher.HandleChatMessage | backend/app/chat/messaging.py:166-206 | nothing is sent when the engine cannot be built; otherwise the marker goes first and the answer to the templated message streams as `StreamAnswer` states |
| Dispatcher.BlankStreamGetsApology | backend/app/chat/messaging.py:201-206 | a whitespace-only answer on an open channel ends with the apology as third record |

## Left out

- BuildDocIdToIndexMap: models only two error paths. A `ValueError` on the load path falls back to the rebuild, and a document whose index cannot be built ends the rebuild. Errors the code lets propagate are not modelled: an error other than `ValueError` from `load_indices_from_storage` (engine.py:145), an error other than `FileNotFoundError` or `ValueError` from `get_storage_context` or the first `persist` (engine.py:135-143), and an error from `StorageContext.from_defaults` on the rebuild path (engine.py:157).
- GetChatEngine: inherits those unmodelled error paths, so "fails only when a document's index cannot be built" holds among the modelled failures only.
- The I/O is not modelled:
  - S3 file systems, document download and PDF reading (`get_s3_fs`, `fetch_and_read_document`);
  - the TTL cache of `get_storage_context`;
  - persisting storage contexts.

  Fetching, reading, indexing and persisting one document becomes the `build` parameter. Finding the storage context becomes the boolean `contextExists`.
- The internals of llama_index and OpenAI are configuration records, not behaviour:
  - vector-store indices;
  - the citation engine and the sub-question engine;
  - the OpenAI agent;
  - the response synthesizer (`get_custom_response_synth`).
- Helpers whose code is not part of this model:
  - `build_title_for_document` is the `title` parameter;
  - `get_api_query_engine_tool` is the tool variant that carries its document;
  - `QuestionAnswerPair.from_sub_question_answer_pair` is represented by its argument;
  - `SYSTEM_MESSAGE` is represented by the title text and date it is filled with.
- `MessageSubProcessSourceEnum[event_type.name]` is modelled as the event kind itself. The enum's definition is not part of this model.
- The current date (`datetime.utcnow`) is a parameter. `print`, logging and `nest_asyncio` have no observable effect on the modelled results.
- Concurrency is not modelled:
  - `on_event_start` and `on_event_end` detach their work with `asyncio.create_task`, and the relative order of event records and token snapshots is left out;
  - one event is modelled as one pure step.
- A send to a stream whose receiver has gone away raises `BrokenResourceError`. This is not modelled; only the sender's own closed flag is.
- A closure before the engine marker is sent is not modelled. `closedAt` counts from the first token check.
- PyText.ParseInt: Unicode decimal digits other than ASCII `0`-`9` are not accepted, while Python's `int` accepts them.
- PyText.ParseInt: CPython's limit on int/str conversion (4300 digits by default, adjustable at run time) is not modelled: `ParseInt` accepts longer digit strings and `IntToString` converts any integer, where CPython raises `ValueError`. Page labels and years stay far below the limit.
- PyText.ParseIntOfIntToString: holds for integers of any size in the model; in CPython it holds only up to the 4300-digit conversion limit, beyond which `str(n)` and `int(...)` raise `ValueError`.
- Events.PyInt: floats, booleans and other types are not modelled. `int(3.7)` would truncate and `int(True)` gives 1. Metadata values are modelled as text, integers or a missing value.
- SEC metadata that pydantic fails to parse is not modelled. The model's documents carry either parsed metadata or none.
- The history is not independent of the order in which messages are stored. The code's stable sort keeps stored order among equal timestamps, so that claim only holds when timestamps identify messages. The model follows the code: `HistoryIgnoresStoredOrder` proves the conditional claim, and `HistoryDependsOnStoredOrderOnTies` exhibits two tied messages whose history changes with their stored order.

=== FILE: chat_engine.dfy ===
/**
 * Assembly of the conversational agent for one chat turn: one citation tool
 * per indexed document, one API tool per SEC filing, the two top-level
 * routing tools, the chat history and the document-title text of the system
 * prompt. The engines themselves are opaque; only their configuration is
 * modelled.
 */
module ChatEngine {
  import opened Wrappers
  import opened PyText
  import opened Seqs
  import opened PyDict
  import opened Documents
  import opened IndexMap
  import ChatHistory

  /** Nearest neighbours retrieved per citation query. */
  const SimilarityTopK: nat := 3
  /** Size of the chunks a citation engine cites. */
  const CitationChunkSize: nat := 512
  /** Tool calls the agent may chain in one turn. */
  const MaxFunctionCalls: nat := 3

  const QualitativeToolName: string := "qualitative_question_engine"
  const QuantitativeToolName: string := "quantitative_question_engine"

  const QualitativeToolDescription: string :=
    "A query engine that can answer qualitative questions about a set of SEC financial documents that the user pre-selected for the conversation.\n"
    + "Any questions about company-related headwinds, tailwinds, risks, sentiments, or administrative information should be asked here."

  const QuantitativeToolDescription: string :=
    "A query engine that can answer quantitative questions about a set of SEC financial documents that the user pre-selected for the conversation.\n"
    + "Any questions about company-related financials or other metrics should be asked here."

  const NoDocumentsSelected: string := "No documents selected."

  /** The configuration of a query engine. */
  datatype QueryEngine<I> =
    | CitationQueryEngine(index: I, docIdFilter: string, similarityTopK: nat, citationChunkSize: nat)
    | SubQuestionQueryEngine(tools: seq<QueryEngineTool<I>>)

  /** A named, described tool around a query engine, or the API tool built for
      an SEC filing by a factory that is not part of this model. */
  datatype QueryEngineTool<I> =
    | QueryEngineTool(name: string, description: string, engine: QueryEngine<I>)
    | ApiQueryEngineTool(document: Document)

  /** A stored conversation: its documents and its messages. */
  datatype Conversation = Conversation(documents: seq<Document>, messages: seq<ChatHistory.Message>)

  /** What the agent is built from. `docTitles` and `currDate` fill the system
      prompt template. */
  datatype ChatAgent<I> = ChatAgent(
    tools: seq<QueryEngineTool<I>>,
    chatHistory: seq<ChatHistory.ChatMessage>,
    docTitles: string,
    currDate: string,
    maxFunctionCalls: nat)

  predicate AllNamed<I>(ts: seq<QueryEngineTool<I>>) {
    forall i :: 0 <= i < |ts| ==> ts[i].QueryEngineTool?
  }

  /** The names of named tools, in order. */
  function Names<I>(ts: seq<QueryEngineTool<I>>): (r: seq<string>)
    requires AllNamed(ts)
    ensures |r| == |ts|
    ensures forall i :: 0 <= i < |ts| ==> r[i] == ts[i].name
  {
    seq(|ts|, i requires 0 <= i < |ts| && AllNamed(ts) => ts[i].name)
  }

  predicate Distinct(s: seq<string>) {
    forall i, j :: 0 <= i < j < |s| ==> s[i] != s[j]
  }

  /** The citation tool for one document: named by the document id, retrieval
      filtered to that id. */
  function CitationTool<I>(docId: string, index: I, doc: Document): (t: QueryEngineTool<I>)
    ensures t.QueryEngineTool? && t.name == docId
    ensures t.engine.CitationQueryEngine? && t.engine.docIdFilter == docId && t.engine.index == index
    ensures t.engine.similarityTopK == 3 && t.engine.citationChunkSize == 512
    ensures t.description == BuildDescriptionForDocument(doc)
  {
    QueryEngineTool(docId, BuildDescriptionForDocument(doc),
      CitationQueryEngine(index, docId, SimilarityTopK, CitationChunkSize))
  }

  /** One citation tool per entry of the index map, in the map's order; a key
      with no document raises `KeyError`. */
  function CitationTools<I>(indexMap: Dict<string, I>, idToDoc: Dict<string, Document>)
    : (r: Result<seq<QueryEngineTool<I>>, EngineError>)
    ensures r.Success? <==> forall k :: k in KeySeq(indexMap) ==> k in KeySeq(idToDoc)
    ensures r.Failure? ==> r.error.MissingDocument? && r.error.key in KeySeq(indexMap)
                           && r.error.key !in KeySeq(idToDoc)
    ensures r.Success? ==> |r.value| == |indexMap|
    ensures r.Success? ==> forall i :: 0 <= i < |indexMap| ==>
      && Get(idToDoc, indexMap[i].0).Some?
      && r.value[i] == CitationTool(indexMap[i].0, indexMap[i].1, Get(idToDoc, indexMap[i].0).value)
    decreases |indexMap|
  {
    if |indexMap| == 0 then Success([])
    else
      var docId := indexMap[0].0;
      var tail := indexMap[1..];
      KeySeqCons(indexMap[0], tail);
      assert [indexMap[0]] + tail == indexMap;
      match Get(idToDoc, docId)
      case None => Failure(MissingDocument(docId))
      case Some(doc) =>
        var rest := CitationTools(tail, idToDoc);
        if rest.Failure? then rest
        else
          var r := [CitationTool(docId, indexMap[0].1, doc)] + rest.value;
          assert forall i :: 1 <= i < |indexMap| ==> indexMap[i] == tail[i - 1];
          assert forall i :: 1 <= i < |indexMap| ==> r[i] == rest.value[i - 1];
          Success(r)
  }

  /** The citation tools are named by the index map's keys, in order. */
  lemma CitationToolNames<I>(indexMap: Dict<string, I>, idToDoc: Dict<string, Document>)
    requires CitationTools(indexMap, idToDoc).Success?
    ensures var ts := CitationTools(indexMap, idToDoc).value;
            AllNamed(ts) && Names(ts) == KeySeq(indexMap)
  {
  }

  /** Citation tools carry pairwise distinct names: one per document id. */
  lemma CitationToolNamesDistinct<I>(indexMap: Dict<string, I>, idToDoc: Dict<string, Document>)
    requires UniqueKeys(indexMap)
    requires CitationTools(indexMap, idToDoc).Success?
    ensures var ts := CitationTools(indexMap, idToDoc).value;
            AllNamed(ts) && Distinct(Names(ts))
  {
    CitationToolNames(indexMap, idToDoc);
  }

  /** The documents behind API tools, in order. */
  function ApiToolDocuments<I>(ts: seq<QueryEngineTool<I>>): (r: seq<Document>)
    requires forall i :: 0 <= i < |ts| ==> ts[i].ApiQueryEngineTool?
    ensures |r| == |ts|
    ensures forall i :: 0 <= i < |ts| ==> r[i] == ts[i].document
  {
    seq(|ts|, i requires 0 <= i < |ts| && ts[i].ApiQueryEngineTool? => ts[i].document)
  }

  /** One API tool per SEC filing, in document order: exactly the SEC
      documents, each as often as it occurs. */
  function ApiTools<I>(docs: seq<Document>): (r: seq<QueryEngineTool<I>>)
    ensures forall i :: 0 <= i < |r| ==> r[i].ApiQueryEngineTool? && IsSecDocument(r[i].document)
    ensures IsSubsequence(ApiToolDocuments(r), docs)
    ensures forall d :: multiset(ApiToolDocuments(r))[d] == if IsSecDocument(d) then multiset(docs)[d] else 0
  {
    var secDocs := Filter(IsSecDocument, docs);
    FilterSpec(IsSecDocument, docs);
    var r := seq(|secDocs|, i requires 0 <= i < |secDocs| => ApiQueryEngineTool(secDocs[i]));
    assert ApiToolDocuments(r) == secDocs;
    r
  }

  /** The two top-level tools, qualitative first. */
  function TopLevelTools<I>(qualitative: seq<QueryEngineTool<I>>, quantitative: seq<QueryEngineTool<I>>)
    : (r: seq<QueryEngineTool<I>>)
    ensures |r| == 2 && AllNamed(r)
    ensures Names(r) == [QualitativeToolName, QuantitativeToolName] && Distinct(Names(r))
    ensures r[0].engine == SubQuestionQueryEngine(qualitative)
    ensures r[1].engine == SubQuestionQueryEngine(quantitative)
    ensures r[0].description == QualitativeToolDescription && r[1].description == QuantitativeToolDescription
  {
    [ QueryEngineTool(QualitativeToolName, QualitativeToolDescription, SubQuestionQueryEngine(qualitative)),
      QueryEngineTool(QuantitativeToolName, QuantitativeToolDescription, SubQuestionQueryEngine(quantitative)) ]
  }

  /** The first named tool called `name`. The agent keys its tools by name, so
      among equal names the last would win; for tools with distinct names,
      such as the two top-level tools, the first is the only one. */
  function FindTool<I>(ts: seq<QueryEngineTool<I>>, name: string): (r: Option<QueryEngineTool<I>>)
    ensures r.Some? ==> r.value in ts && r.value.QueryEngineTool? && r.value.name == name
    ensures r.None? ==> forall i :: 0 <= i < |ts| ==> !(ts[i].QueryEngineTool? && ts[i].name == name)
    decreases |ts|
  {
    if |ts| == 0 then None
    else if ts[0].QueryEngineTool? && ts[0].name == name then Some(ts[0])
    else
      var r := FindTool(ts[1..], name);
      assert forall i :: 1 <= i < |ts| ==> ts[i] == ts[1..][i - 1];
      r
  }

  /** Asking for either top-level tool by name reaches the sub-question
      engine over the tools it was given. */
  lemma TopLevelToolsRoute<I>(qualitative: seq<QueryEngineTool<I>>, quantitative: seq<QueryEngineTool<I>>)
    ensures var ts := TopLevelTools(qualitative, quantitative);
            && FindTool(ts, QualitativeToolName).Some?
            && FindTool(ts, QualitativeToolName).value.engine == SubQuestionQueryEngine(qualitative)
            && FindTool(ts, QuantitativeToolName).Some?
            && FindTool(ts, QuantitativeToolName).value.engine == SubQuestionQueryEngine(quantitative)
  {
    var ts := TopLevelTools(qualitative, quantitative);
    assert QualitativeToolName[3] != QuantitativeToolName[3];
    assert ts[1..] == [ts[1]];
  }

  /** The title lines of the system prompt, one "- title" per document. */
  function TitleLines(docs: seq<Document>, title: Document -> string): (r: seq<string>)
    ensures |r| == |docs|
    ensures forall i :: 0 <= i < |docs| ==> r[i] == "- " + title(docs[i])
  {
    seq(|docs|, i requires 0 <= i < |docs| => "- " + title(docs[i]))
  }

  /** The document-title text of the system prompt: the title lines joined by
      newlines, or the sentinel when the conversation has no document. */
  function DocTitles(docs: seq<Document>, title: Document -> string): (r: string)
    ensures |docs| == 0 <==> r == NoDocumentsSelected
    ensures |docs| > 0 && (forall i :: 0 <= i < |docs| ==> '\n' !in title(docs[i])) ==>
      Split(r, '\n') == TitleLines(docs, title)
  {
    if |docs| == 0 then NoDocumentsSelected
    else
      var lines := TitleLines(docs, title);
      JoinStartsWithFirst(lines, '\n');
      assert Join(lines, '\n')[0] == '-';
      if forall i :: 0 <= i < |docs| ==> '\n' !in title(docs[i]) then
        assert forall i :: 0 <= i < |lines| ==> '\n' !in lines[i] by {
          forall i | 0 <= i < |lines| ensures '\n' !in lines[i] {
            assert lines[i] == "- " + title(docs[i]);
          }
        }
        SplitJoin(lines, '\n');
        Join(lines, '\n')
      else Join(lines, '\n')
  }

  /** `{str(doc.id): doc for doc in documents}`. */
  function IdToDoc(docs: seq<Document>): (r: Dict<string, Document>)
    ensures forall k :: k in KeySeq(r) <==> k in DocIds(docs)
    ensures forall i :: 0 <= i < |docs| && IsLastWithId(docs, i) ==> Get(r, docs[i].id) == Some(docs[i])
  {
    var pairs := seq(|docs|, i requires 0 <= i < |docs| => (docs[i].id, docs[i]));
    assert KeySeq(pairs) == DocIds(docs);
    forall i | 0 <= i < |docs| && IsLastWithId(docs, i) ensures Get(FromPairs(pairs), docs[i].id) == Some(docs[i]) {
      forall j | i < j < |pairs| ensures pairs[j].0 != pairs[i].0 {
        assert pairs[j].0 == docs[j].id;
      }
      FromPairsLastWins(pairs, i);
    }
    FromPairs(pairs)
  }

  /** The engine tools wrapped by a top-level tool. */
  function SubTools<I>(t: QueryEngineTool<I>): seq<QueryEngineTool<I>> {
    if t.QueryEngineTool? && t.engine.SubQuestionQueryEngine? then t.engine.tools else []
  }

  /** What `get_chat_engine` gives the agent: the two fixed top-level tools,
      over citation tools with distinct names drawn from the document ids and
      over the API tools of the SEC documents; at most 3 function calls; the
      history of the stored messages and the title text of the documents. */
  ghost predicate AgentShape<I>(a: ChatAgent<I>, conv: Conversation, title: Document -> string) {
    && |a.tools| == 2 && AllNamed(a.tools)
    && Names(a.tools) == [QualitativeToolName, QuantitativeToolName]
    && AllNamed(SubTools(a.tools[0]))
    && Distinct(Names(SubTools(a.tools[0])))
    && (forall n :: n in Names(SubTools(a.tools[0])) ==> n in DocIds(conv.documents))
    && SubTools(a.tools[1]) == ApiTools(conv.documents)
    && a.maxFunctionCalls == 3
    && a.docTitles == DocTitles(conv.documents, title)
    && a.chatHistory == ChatHistory.GetChatHistory(conv.messages)
  }

  /** `get_chat_engine`: build the index map, the citation and API tools, the
      two top-level tools, the history and the title text. Only a document
      whose index cannot be built makes it fail. */
  function GetChatEngine<I>(conv: Conversation, contextExists: bool,
                            load: (StorageContext, seq<string>) -> Option<seq<I>>,
                            build: Document -> Option<I>,
                            title: Document -> string,
                            currDate: string): (r: Result<ChatAgent<I>, EngineError>)
    ensures r.Success? <==> BuildDocIdToIndexMap(conv.documents, contextExists, load, build).Success?
    ensures r.Failure? <==> load(GetStorageContext(contextExists), DocIds(conv.documents)).None?
                            && SomeUnbuildable(conv.documents, build)
    ensures r.Failure? ==> r.error == BuildFailed(conv.documents[FirstUnbuildable(conv.documents, build)].id)
    ensures r.Success? ==> AgentShape(r.value, conv, title) && r.value.currDate == currDate
    ensures r.Success? ==>
      Names(SubTools(r.value.tools[0])) == KeySeq(BuildDocIdToIndexMap(conv.documents, contextExists, load, build).value)
    ensures r.Success? ==>
      var m := BuildDocIdToIndexMap(conv.documents, contextExists, load, build).value;
      && CitationTools(m, IdToDoc(conv.documents)).Success?
      && SubTools(r.value.tools[0]) == CitationTools(m, IdToDoc(conv.documents)).value
  {
    match BuildDocIdToIndexMap(conv.documents, contextExists, load, build)
    case Failure(e) => Failure(e)
    case Success(indexMap) =>
      var idToDoc := IdToDoc(conv.documents);
      match CitationTools(indexMap, idToDoc)
      case Failure(e) => assert false; Failure(e)
      case Success(citationTools) =>
        CitationToolNamesDistinct(indexMap, idToDoc);
        CitationToolNames(indexMap, idToDoc);
        var tools := TopLevelTools(citationTools, ApiTools(conv.documents));
        assert SubTools(tools[0]) == citationTools;
        assert SubTools(tools[1]) == ApiTools(conv.documents);
        Success(ChatAgent(tools, ChatHistory.GetChatHistory(conv.messages), DocTitles(conv.documents, title),
                          currDate, MaxFunctionCalls))
  }

  /** Every document has a citation tool named by its id whenever the index
      map covers every document. */
  lemma EveryDocumentHasCitationTool<I>(conv: Conversation, contextExists: bool,
                                        load: (StorageContext, seq<string>) -> Option<seq<I>>,
                                        build: Document -> Option<I>,
                                        title: Document -> string, currDate: string)
    requires GetChatEngine(conv, contextExists, load, build, title, currDate).Success?
    requires var loaded := load(GetStorageContext(contextExists), DocIds(conv.documents));
             loaded.None? || |loaded.value| == |conv.documents|
    ensures var a := GetChatEngine(conv, contextExists, load, build, title, currDate).value;
            forall d :: d in conv.documents ==> d.id in Names(SubTools(a.tools[0]))
  {
    IndexMapKeysAreDocIds(conv.documents, contextExists, load, build);
    var indexMap := BuildDocIdToIndexMap(conv.documents, contextExists, load, build).value;
    forall d | d in conv.documents ensures d.id in KeySeq(indexMap) {
      var i :| 0 <= i < |conv.documents| && conv.documents[i] == d;
      assert DocIds(conv.documents)[i] == d.id;
    }
  }

  /** A conversation without documents gets no per-document tools and the
      "No documents selected." title text, whatever the loader does. */
  lemma EmptyConversation<I>(messages: seq<ChatHistory.Message>, contextExists: bool,
                             load: (StorageContext, seq<string>) -> Option<seq<I>>,
                             build: Document -> Option<I>,
                             title: Document -> string, currDate: string)
    ensures var r := GetChatEngine(Conversation([], messages), contextExists, load, build, title, currDate);
            && r.Success?
            && SubTools(r.value.tools[0]) == []
            && SubTools(r.value.tools[1]) == []
            && r.value.docTitles == NoDocumentsSelected
  {
    var r := GetChatEngine(Conversation([], messages), contextExists, load, build, title, currDate);
    assert RebuildIndexMap([], build).Success?;
    assert Names(SubTools(r.value.tools[0])) == [];
  }
}

=== FILE: chat_history.dfy ===
/**
 * Reconstruction of the agent's chat history from a conversation's stored
 * messages: keep the successful, non-blank ones, order them by creation time
 * with a stable sort, and collapse each role to assistant or user.
 */
module ChatHistory {
  import opened PyText
  import opened Seqs

  /** Role of a stored message. */
  datatype MessageRole = UserRole | AssistantRole

  /** Delivery status of a stored message. */
  datatype MessageStatus = Pending | Success | Error

  /** A stored conversation message; `createdAt` is its creation timestamp. */
  datatype Message = Message(role: MessageRole, content: string, status: MessageStatus, createdAt: int)

  /** The two roles the agent's history distinguishes. */
  datatype ChatRole = User | Assistant

  /** One entry of the agent's chat history. */
  datatype ChatMessage = ChatMessage(role: ChatRole, content: string)

  /** A message takes part in the history: it succeeded and its content is not blank. */
  predicate IsEligible(m: Message) {
    Strip(m.content) != "" && m.status == Success
  }

  /** The eligible messages in their stored order. */
  function EligibleMessages(ms: seq<Message>): (r: seq<Message>)
    ensures forall i :: 0 <= i < |r| ==> IsEligible(r[i]) && !Blank(r[i].content)
    ensures forall m :: multiset(r)[m] == if IsEligible(m) then multiset(ms)[m] else 0
    ensures IsSubsequence(r, ms)
  {
    FilterSpec(IsEligible, ms);
    Filter(IsEligible, ms)
  }

  // ---------------------------------------------------------------------------
  // Stable sort by creation time
  // ---------------------------------------------------------------------------

  predicate SortedByTime(s: seq<Message>) {
    forall i, j :: 0 <= i < j < |s| ==> s[i].createdAt <= s[j].createdAt
  }

  /** The messages of `s` created at time `t`, in their order in `s`. */
  function AtTime(s: seq<Message>, t: int): (r: seq<Message>)
    ensures forall x :: x in r ==> x in s && x.createdAt == t
    decreases |s|
  {
    if |s| == 0 then []
    else if s[0].createdAt == t then [s[0]] + AtTime(s[1..], t)
    else AtTime(s[1..], t)
  }

  /** `r` is the result of a stable sort of `s` by creation time: sorted, and
      the messages sharing a timestamp keep their relative order from `s`. */
  ghost predicate IsStableSortOf(r: seq<Message>, s: seq<Message>) {
    SortedByTime(r) && forall t :: AtTime(r, t) == AtTime(s, t)
  }

  lemma AtTimeCons(x: Message, s: seq<Message>, t: int)
    ensures AtTime([x] + s, t) == (if x.createdAt == t then [x] else []) + AtTime(s, t)
  {
    assert ([x] + s)[1..] == s;
  }

  /** Every message of `s` was created no earlier than `t`. */
  predicate NotBefore(t: int, s: seq<Message>) {
    forall i :: 0 <= i < |s| ==> t <= s[i].createdAt
  }

  /** Python's `sorted(s, key=created_at)` for one element: `x` goes before the
      first element not created earlier than it. */
  function Insert(x: Message, s: seq<Message>): (r: seq<Message>)
    ensures multiset(r) == multiset{x} + multiset(s)
    ensures |r| == |s| + 1
    decreases |s|
  {
    if |s| == 0 || x.createdAt <= s[0].createdAt then [x] + s
    else
      assert s == [s[0]] + s[1..];
      [s[0]] + Insert(x, s[1..])
  }

  /** A lower bound of `x` and of `s` bounds their insertion. */
  lemma {:induction false} InsertNotBefore(x: Message, s: seq<Message>, t: int)
    requires t <= x.createdAt && NotBefore(t, s)
    ensures NotBefore(t, Insert(x, s))
    decreases |s|
  {
    if |s| > 0 && x.createdAt > s[0].createdAt {
      InsertNotBefore(x, s[1..], t);
    }
  }

  /** Insertion into a sorted list keeps it sorted. */
  lemma {:induction false} InsertSorted(x: Message, s: seq<Message>)
    requires SortedByTime(s)
    ensures SortedByTime(Insert(x, s))
    decreases |s|
  {
    if |s| > 0 && x.createdAt > s[0].createdAt {
      var rest := Insert(x, s[1..]);
      InsertSorted(x, s[1..]);
      InsertNotBefore(x, s[1..], s[0].createdAt);
      assert Insert(x, s) == [s[0]] + rest;
    }
  }

  /** Inserting keeps every timestamp class in the order "x first, then s". */
  lemma {:induction false} InsertAtTime(x: Message, s: seq<Message>, t: int)
    ensures AtTime(Insert(x, s), t) == AtTime([x] + s, t)
    decreases |s|
  {
    if |s| > 0 && x.createdAt > s[0].createdAt {
      InsertAtTime(x, s[1..], t);
      AtTimeCons(s[0], Insert(x, s[1..]), t);
      AtTimeCons(x, s[1..], t);
      AtTimeCons(x, s, t);
      AtTimeCons(s[0], s[1..], t);
      assert [s[0]] + s[1..] == s;
    }
  }

  /** The stable sort the history uses, by insertion from the back. */
  function SortByCreatedAt(s: seq<Message>): (r: seq<Message>)
    ensures SortedByTime(r)
    ensures multiset(r) == multiset(s)
    ensures forall t :: AtTime(r, t) == AtTime(s, t)
    decreases |s|
  {
    if |s| == 0 then []
    else
      var rest := SortByCreatedAt(s[1..]);
      InsertSorted(s[0], rest);
      assert s == [s[0]] + s[1..];
      forall t ensures AtTime(Insert(s[0], rest), t) == AtTime(s, t) {
        InsertAtTime(s[0], rest, t);
        AtTimeCons(s[0], rest, t);
        AtTimeCons(s[0], s[1..], t);
      }
      Insert(s[0], rest)
  }

  lemma AtTimeHead(s: seq<Message>)
    requires |s| > 0
    ensures AtTime(s, s[0].createdAt) == [s[0]] + AtTime(s[1..], s[0].createdAt)
  {
  }

  lemma {:induction false} AtTimeNonEmpty(s: seq<Message>, i: nat)
    requires i < |s|
    ensures |AtTime(s, s[i].createdAt)| > 0
    decreases |s|
  {
    if i > 0 {
      AtTimeNonEmpty(s[1..], i - 1);
    }
  }

  lemma SameClassesSameEmptiness(a: seq<Message>, b: seq<Message>)
    requires forall t :: AtTime(a, t) == AtTime(b, t)
    ensures |a| == 0 <==> |b| == 0
  {
    if |a| != 0 {
      AtTimeNonEmpty(a, 0);
      assert |AtTime(b, a[0].createdAt)| > 0;
    }
    if |b| != 0 {
      AtTimeNonEmpty(b, 0);
      assert |AtTime(a, b[0].createdAt)| > 0;
    }
  }

  /** In a sorted sequence no element is created before the first one. */
  lemma SortedFirstIsEarliest(s: seq<Message>, x: Message)
    requires SortedByTime(s) && |s| > 0 && x in s
    ensures s[0].createdAt <= x.createdAt
  {
  }

  lemma SameClassesSameHead(a: seq<Message>, b: seq<Message>)
    requires SortedByTime(a) && SortedByTime(b) && |a| > 0 && |b| > 0
    requires forall t :: AtTime(a, t) == AtTime(b, t)
    ensures a[0] == b[0]
  {
    var ka, kb := a[0].createdAt, b[0].createdAt;
    AtTimeNonEmpty(a, 0);
    AtTimeNonEmpty(b, 0);
    assert AtTime(b, ka)[0] in AtTime(b, ka);
    SortedFirstIsEarliest(b, AtTime(b, ka)[0]);
    assert AtTime(a, kb)[0] in AtTime(a, kb);
    SortedFirstIsEarliest(a, AtTime(a, kb)[0]);
    AtTimeHead(a);
    AtTimeHead(b);
  }

  lemma SameClassesSameTails(a: seq<Message>, b: seq<Message>)
    requires |a| > 0 && |b| > 0 && a[0] == b[0]
    requires forall t :: AtTime(a, t) == AtTime(b, t)
    ensures forall t :: AtTime(a[1..], t) == AtTime(b[1..], t)
  {
    forall t ensures AtTime(a[1..], t) == AtTime(b[1..], t) {
      if t == a[0].createdAt {
        AtTimeHead(a);
        AtTimeHead(b);
        assert AtTime(a[1..], t) == AtTime(a, t)[1..];
        assert AtTime(b[1..], t) == AtTime(b, t)[1..];
      } else {
        assert AtTime(a, t) == AtTime(a[1..], t);
        assert AtTime(b, t) == AtTime(b[1..], t);
      }
    }
  }

  /** A stable sort is unique: two sorted sequences with the same messages at
      every timestamp, in the same order, are equal. */
  lemma {:induction false} StableSortUnique(a: seq<Message>, b: seq<Message>)
    requires SortedByTime(a) && SortedByTime(b)
    requires forall t :: AtTime(a, t) == AtTime(b, t)
    ensures a == b
    decreases |a|
  {
    SameClassesSameEmptiness(a, b);
    if |a| > 0 {
      SameClassesSameHead(a, b);
      SameClassesSameTails(a, b);
      StableSortUnique(a[1..], b[1..]);
      assert a == [a[0]] + a[1..] && b == [b[0]] + b[1..];
    }
  }

  // ---------------------------------------------------------------------------
  // The history
  // ---------------------------------------------------------------------------

  /** One stored message as a history entry: content unchanged, the role
      assistant exactly when the stored role is assistant. */
  function ToChatMessage(m: Message): (c: ChatMessage)
    ensures c.content == m.content
    ensures c.role == Assistant <==> m.role == AssistantRole
    ensures c.role == User <==> m.role != AssistantRole
  {
    ChatMessage(if m.role == AssistantRole then Assistant else User, m.content)
  }

  function ToChatMessages(s: seq<Message>): (r: seq<ChatMessage>)
    ensures |r| == |s|
    ensures forall i :: 0 <= i < |s| ==> r[i] == ToChatMessage(s[i])
  {
    seq(|s|, i requires 0 <= i < |s| => ToChatMessage(s[i]))
  }

  /** The messages behind the history, in history order. */
  function HistoryOrder(ms: seq<Message>): seq<Message> {
    SortByCreatedAt(EligibleMessages(ms))
  }

  /** `get_chat_history`: the eligible messages, stably sorted by creation
      time, as chat messages. The result is the projection of ANY stable sort
      of the eligible messages. */
  function GetChatHistory(ms: seq<Message>): (r: seq<ChatMessage>)
    ensures |r| == |EligibleMessages(ms)|
    ensures forall w :: IsStableSortOf(w, EligibleMessages(ms)) ==> r == ToChatMessages(w)
  {
    var sorted := HistoryOrder(ms);
    forall w | IsStableSortOf(w, EligibleMessages(ms)) ensures w == sorted {
      StableSortUnique(w, sorted);
    }
    ToChatMessages(sorted)
  }

  /** What the history holds, message by message: each eligible stored message
      exactly as often as it was stored, no other message, in non-decreasing
      creation time with ties in stored order, each entry carrying its
      message's content and collapsed role. */
  lemma ChatHistorySpec(ms: seq<Message>)
    ensures |GetChatHistory(ms)| == |HistoryOrder(ms)|
    ensures forall m :: multiset(HistoryOrder(ms))[m] == if IsEligible(m) then multiset(ms)[m] else 0
    ensures forall i :: 0 <= i < |HistoryOrder(ms)| ==>
      && IsEligible(HistoryOrder(ms)[i])
      && GetChatHistory(ms)[i] == ToChatMessage(HistoryOrder(ms)[i])
    ensures IsStableSortOf(HistoryOrder(ms), EligibleMessages(ms))
  {
    var e := EligibleMessages(ms);
    var h := HistoryOrder(ms);
    forall i | 0 <= i < |h| ensures IsEligible(h[i]) {
      assert h[i] in multiset(h);
    }
  }

  // ---------------------------------------------------------------------------
  // Dependence on the stored order
  // ---------------------------------------------------------------------------

  /** No two distinct messages of `s` share a timestamp. */
  predicate TimesIdentify(s: seq<Message>) {
    forall x, y :: x in s && y in s && x.createdAt == y.createdAt ==> x == y
  }

  lemma SamePermutationSameHead(a: seq<Message>, b: seq<Message>)
    requires SortedByTime(a) && SortedByTime(b) && |a| > 0 && |b| > 0
    requires multiset(a) == multiset(b)
    requires TimesIdentify(a)
    ensures a[0] == b[0]
  {
    assert a[0] in multiset(b) && b[0] in multiset(a);
    assert a[0] in b && b[0] in a;
    SortedFirstIsEarliest(b, a[0]);
    SortedFirstIsEarliest(a, b[0]);
  }

  /** What the tail of a list inherits from the list. */
  lemma TailFacts(s: seq<Message>)
    requires |s| > 0
    ensures multiset(s[1..]) == multiset(s) - multiset{s[0]}
    ensures SortedByTime(s) ==> SortedByTime(s[1..])
    ensures TimesIdentify(s) ==> TimesIdentify(s[1..])
  {
    assert s == [s[0]] + s[1..];
    assert forall x :: x in s[1..] ==> x in s;
  }

  /** Two sorted arrangements of the same messages coincide when timestamps
      identify messages. */
  lemma {:induction false} SortedPermutationUnique(a: seq<Message>, b: seq<Message>)
    requires SortedByTime(a) && SortedByTime(b)
    requires multiset(a) == multiset(b)
    requires TimesIdentify(a)
    ensures a == b
    decreases |a|
  {
    assert |a| == |multiset(a)| == |multiset(b)| == |b|;
    if |a| > 0 {
      SortedPermutationStep(a, b);
      SortedPermutationUnique(a[1..], b[1..]);
      assert a == [a[0]] + a[1..] && b == [b[0]] + b[1..];
    }
  }

  /** The heads agree, and the tails meet the same conditions. */
  lemma SortedPermutationStep(a: seq<Message>, b: seq<Message>)
    requires SortedByTime(a) && SortedByTime(b)
    requires multiset(a) == multiset(b)
    requires TimesIdentify(a)
    requires |a| > 0 && |b| > 0
    ensures a[0] == b[0]
    ensures SortedByTime(a[1..]) && SortedByTime(b[1..])
    ensures multiset(a[1..]) == multiset(b[1..])
    ensures TimesIdentify(a[1..])
  {
    SamePermutationSameHead(a, b);
    TailFacts(a);
    TailFacts(b);
  }

  /** When timestamps identify messages, the history does not depend on the
      order in which messages are stored. */
  lemma HistoryIgnoresStoredOrder(ms1: seq<Message>, ms2: seq<Message>)
    requires multiset(ms1) == multiset(ms2)
    requires TimesIdentify(EligibleMessages(ms1))
    ensures GetChatHistory(ms1) == GetChatHistory(ms2)
  {
    var h1, h2 := HistoryOrder(ms1), HistoryOrder(ms2);
    SameEligible(ms1, ms2);
    HistoryTimesIdentify(ms1);
    SortedPermutationUnique(h1, h2);
  }

  lemma EligiblePair(a: Message, b: Message)
    requires IsEligible(a) && IsEligible(b)
    ensures EligibleMessages([a, b]) == [a, b]
  {
    FilterKeepsPair(IsEligible, a, b);
  }

  /** Stored lists with the same messages give histories with the same messages. */
  lemma SameEligible(ms1: seq<Message>, ms2: seq<Message>)
    requires multiset(ms1) == multiset(ms2)
    ensures multiset(HistoryOrder(ms1)) == multiset(HistoryOrder(ms2))
  {
    assert multiset(HistoryOrder(ms1)) == multiset(EligibleMessages(ms1));
    assert multiset(HistoryOrder(ms2)) == multiset(EligibleMessages(ms2));
    assert forall m :: multiset(EligibleMessages(ms1))[m] == multiset(EligibleMessages(ms2))[m];
  }

  /** The history's messages are the eligible messages, so they inherit distinct times. */
  lemma HistoryTimesIdentify(ms: seq<Message>)
    requires TimesIdentify(EligibleMessages(ms))
    ensures TimesIdentify(HistoryOrder(ms))
  {
    var h, e := HistoryOrder(ms), EligibleMessages(ms);
    forall x | x in h ensures x in e {
      assert x in multiset(h);
      assert x in multiset(e);
    }
  }

  lemma SingleLetterEligible(m: Message)
    requires m.status == Success && (m.content == "a" || m.content == "b")
    ensures IsEligible(m)
  {
    StripUnchanged(m.content);
  }

  /** With equal timestamps the stored order decides the history order. */
  lemma HistoryDependsOnStoredOrderOnTies()
    ensures var a := Message(UserRole, "a", Success, 0);
            var b := Message(UserRole, "b", Success, 0);
            GetChatHistory([a, b]) != GetChatHistory([b, a])
  {
    var a := Message(UserRole, "a", Success, 0);
    var b := Message(UserRole, "b", Success, 0);
    SingleLetterEligible(a);
    SingleLetterEligible(b);
    EligiblePair(a, b);
    EligiblePair(b, a);
    SortTiedPair(a, b);
    SortTiedPair(b, a);
    assert GetChatHistory([a, b])[0] == ToChatMessage(a);
    assert GetChatHistory([b, a])[0] == ToChatMessage(b);
  }

  /** Two messages with the same timestamp stay in their given order. */
  lemma SortTiedPair(x: Message, y: Message)
    requires x.createdAt == y.createdAt
    ensures SortByCreatedAt([x, y]) == [x, y]
  {
    assert [x, y][1..] == [y];
    assert [y][1..] == [];
    assert SortByCreatedAt([y]) == Insert(y, []) == [y];
    assert Insert(x, [y]) == [x, y];
  }
}

=== FILE: dispatcher.dfy ===
/**
 * One chat turn as seen on the output channel: the engine-constructed marker,
 * cumulative snapshots of the streamed answer, early return when the channel
 * is found closed, and the fallback apology when the answer is blank.
 *
 * The agent and its token stream are parameters: `generate` gives the tokens
 * the agent streams for a prompt. The channel's closed flag is an input
 * `closedAt`: `Some(k)` means the flag is set from the check before the
 * snapshot of token `k` onwards (`k == |tokens|` or later: after the loop).
 */
module Dispatcher {
  import opened Wrappers
  import opened PyText
  import opened Events

  /** The reminder the user's message is prefixed with. */
  const ReminderLine: string :=
    "Remember - if I have asked a relevant"
    + " financial question, use your tools."

  const FallbackMessage: string :=
    "Sorry, I either wasn't able to understand your question or I don't have an answer for it."

  /** How the turn ends: normally, with the engine's construction error, or
      with `ClosedResourceError` from the unguarded fallback send. */
  datatype Ending = Returned | RaisedEngineError | RaisedClosedResource

  /** The marker sent once the engine exists. */
  function EngineMarker<S>(eventId: string): (r: Record<S>)
    ensures r.SubProcess? && r.source == ConstructedQueryEngine && r.hasEnded && r.metadataMap.None?
  {
    SubProcess(ConstructedQueryEngine, true, eventId, None)
  }

  /** The prompt built around a message: a reminder line, a blank line and
      the message, the whole stripped. */
  function Template(reminder: string, content: string): string {
    Strip("\n" + reminder + "\n\n" + content + "\n        ")
  }

  /** The prompt sent to the agent. */
  function TemplatedMessage(content: string): string {
    Template(ReminderLine, content)
  }

  /** Templating keeps a reminder that starts and ends visibly; it keeps a
      non-blank message up to its last visible character and drops a blank one
      together with the blank line. */
  lemma TemplateShape(reminder: string, content: string)
    requires |reminder| > 0 && !IsSpace(reminder[0]) && !IsSpace(reminder[|reminder| - 1])
    ensures !Blank(content) ==> Template(reminder, content) == reminder + "\n\n" + TrimRight(content)
    ensures Blank(content) ==> Template(reminder, content) == reminder
  {
    var head := reminder + "\n\n";
    var tail := "\n        ";
    TemplateFrame(reminder, content);
    WhitespaceLiterals();
    assert head[0] == reminder[0];
    StripFramed('\n', head, content, tail);
    TrimRightDropsBlank(reminder, "\n\n");
  }

  lemma TemplateFrame(reminder: string, content: string)
    ensures "\n" + reminder + "\n\n" + content + "\n        "
         == ['\n'] + ((reminder + "\n\n") + content + "\n        ")
  {
  }

  lemma WhitespaceLiterals()
    ensures Blank("\n        ") && Blank("\n\n")
  {
    var tail := "\n        ";
    forall i | 0 <= i < |tail| ensures IsSpace(tail[i]) { }
  }

  /** A non-blank message survives templating with only its trailing
      whitespace removed; a blank one leaves the reminder alone. */
  lemma TemplatedMessageShape(content: string)
    ensures !Blank(content) ==> TemplatedMessage(content) == ReminderLine + "\n\n" + TrimRight(content)
    ensures Blank(content) ==> TemplatedMessage(content) == ReminderLine
  {
    ReminderLineEnds();
    TemplateShape(ReminderLine, content);
  }

  /** The reminder starts with 'R' and ends with '.'. */
  lemma ReminderLineEnds()
    ensures ReminderLine[0] == 'R' && ReminderLine[|ReminderLine| - 1] == '.'
  {
    assert ReminderLine[0] == 'R';
    assert ReminderLine[|ReminderLine| - 1] == '.';
  }

  /** The text accumulated from the first tokens. */
  function Concat(tokens: seq<string>): string
    decreases |tokens|
  {
    if |tokens| == 0 then "" else Concat(tokens[..|tokens| - 1]) + tokens[|tokens| - 1]
  }

  lemma ConcatSnoc(tokens: seq<string>, i: nat)
    requires i < |tokens|
    ensures Concat(tokens[..i + 1]) == Concat(tokens[..i]) + tokens[i]
  {
    assert tokens[..i + 1][..i] == tokens[..i];
  }

  /** Each snapshot is a prefix of every later one. */
  lemma {:induction false} ConcatPrefix(tokens: seq<string>, i: nat, j: nat)
    requires i <= j <= |tokens|
    ensures Concat(tokens[..i]) <= Concat(tokens[..j])
    decreases j - i
  {
    if i < j {
      ConcatPrefix(tokens, i, j - 1);
      ConcatSnoc(tokens, j - 1);
    }
  }

  /** The accumulated text is blank exactly when every token is. */
  lemma {:induction false} BlankConcat(tokens: seq<string>)
    ensures Blank(Concat(tokens)) <==> forall i :: 0 <= i < |tokens| ==> Blank(tokens[i])
    decreases |tokens|
  {
    if |tokens| > 0 {
      var init := tokens[..|tokens| - 1];
      var last := tokens[|tokens| - 1];
      BlankConcat(init);
      var c := Concat(init);
      assert Concat(tokens) == c + last;
      assert Blank(c + last) <==> Blank(c) && Blank(last) by {
        assert forall k :: 0 <= k < |c| ==> (c + last)[k] == c[k];
        assert forall k :: 0 <= k < |last| ==> (c + last)[|c| + k] == last[k];
      }
      assert forall i :: 0 <= i < |init| ==> init[i] == tokens[i];
    }
  }

  /** The channel's closed flag at the check before snapshot `i`. */
  predicate ClosedAt(closedAt: Option<nat>, i: nat) {
    closedAt.Some? && closedAt.value <= i
  }

  /** Whether the answer is the blank one that gets the apology. */
  predicate NeedsFallback(tokens: seq<string>) {
    Blank(Concat(tokens))
  }

  /** What the channel receives after the engine exists, and how the turn
      ends: the marker first; snapshot `j` is the text of the first `j`
      tokens; a closed channel ends the turn before its snapshot, without
      fallback; after the stream, a blank answer gets the apology, whose send
      raises when the channel is already closed. */
  predicate StreamedAs<S(==)>(tokens: seq<string>, closedAt: Option<nat>, marker: Record<S>,
                          sent: seq<Record<S>>, ending: Ending)
  {
    var n := |tokens|;
    var k := if closedAt.Some? && closedAt.value < n then closedAt.value else n;
    && |sent| >= k + 1
    && sent[0] == marker
    && (forall j :: 1 <= j <= k ==> sent[j] == Streamed(Concat(tokens[..j])))
    && (k < n ==> |sent| == k + 1 && ending == Returned)
    && (k == n && !NeedsFallback(tokens) ==> |sent| == n + 1 && ending == Returned)
    && (k == n && NeedsFallback(tokens) && ClosedAt(closedAt, n) ==>
          |sent| == n + 1 && ending == RaisedClosedResource)
    && (k == n && NeedsFallback(tokens) && !ClosedAt(closedAt, n) ==>
          |sent| == n + 2 && sent[n + 1] == Streamed(FallbackMessage) && ending == Returned)
  }

  /** The streaming part of `handle_chat_message`, after the marker. */
  method StreamAnswer<S(==)>(tokens: seq<string>, closedAt: Option<nat>, marker: Record<S>)
    returns (sent: seq<Record<S>>, ending: Ending)
    ensures StreamedAs(tokens, closedAt, marker, sent, ending)
  {
    sent := [marker];
    var response := "";
    var i := 0;
    while i < |tokens|
      invariant 0 <= i <= |tokens|
      invariant response == Concat(tokens[..i])
      invariant closedAt.None? || closedAt.value >= i
      invariant |sent| == i + 1 && sent[0] == marker
      invariant forall j :: 1 <= j <= i ==> sent[j] == Streamed(Concat(tokens[..j]))
    {
      ConcatSnoc(tokens, i);
      response := response + tokens[i];
      if ClosedAt(closedAt, i) {
        return sent, Returned;
      }
      sent := sent + [Streamed(response)];
      i := i + 1;
    }
    assert tokens[..i] == tokens;
    if Strip(response) == "" {
      if ClosedAt(closedAt, i) {
        return sent, RaisedClosedResource;
      }
      sent := sent + [Streamed(FallbackMessage)];
    }
    ending := Returned;
  }

  /** The snapshots of a streamed answer form a prefix chain, and the turn
      raises only over a blank answer. */
  lemma StreamedAsChain<S>(tokens: seq<string>, closedAt: Option<nat>, marker: Record<S>,
                           sent: seq<Record<S>>, ending: Ending)
    requires StreamedAs(tokens, closedAt, marker, sent, ending)
    ensures var k := if closedAt.Some? && closedAt.value < |tokens| then closedAt.value else |tokens|;
            forall i, j :: 1 <= i <= j <= k ==> sent[i].Streamed? && sent[i].content <= sent[j].content
    ensures ending == RaisedClosedResource ==> NeedsFallback(tokens) && ClosedAt(closedAt, |tokens|)
  {
    var k := if closedAt.Some? && closedAt.value < |tokens| then closedAt.value else |tokens|;
    SnapshotsChain(sent, tokens, k);
  }

  /** `handle_chat_message`: without an engine nothing is sent; with one, the
      marker goes first and the answer streams as `StreamedAs` describes. */
  method HandleChatMessage<A, E, S(==)>(agent: Result<A, E>, generate: (A, string) -> seq<string>,
                                    userContent: string, closedAt: Option<nat>, markerId: string)
    returns (sent: seq<Record<S>>, ending: Ending)
    ensures agent.Failure? ==> sent == [] && ending == RaisedEngineError
    ensures agent.Success? ==>
      StreamedAs(generate(agent.value, TemplatedMessage(userContent)), closedAt, EngineMarker(markerId), sent, ending)
  {
    if agent.Failure? {
      return [], RaisedEngineError;
    }
    var tokens := generate(agent.value, TemplatedMessage(userContent));
    sent, ending := StreamAnswer(tokens, closedAt, EngineMarker(markerId));
  }

  /** Snapshots laid out as in `HandleChatMessage` form a prefix chain. */
  lemma SnapshotsChain<S>(sent: seq<Record<S>>, tokens: seq<string>, k: nat)
    requires k <= |tokens| && |sent| >= k + 1
    requires forall j :: 1 <= j <= k ==> sent[j] == Streamed(Concat(tokens[..j]))
    ensures forall i, j :: 1 <= i <= j <= k ==> sent[i].Streamed? && sent[i].content <= sent[j].content
  {
    forall i, j | 1 <= i <= j <= k ensures sent[i].content <= sent[j].content {
      ConcatPrefix(tokens, i, j);
    }
  }

  /** A stream of whitespace ends in the apology when the channel stays open. */
  method BlankStreamGetsApology<A, E, S(==)>(agent: A, markerId: string) returns (sent: seq<Record<S>>)
    ensures |sent| == 3 && sent[2] == Streamed(FallbackMessage)
  {
    var ending;
    var ok: Result<A, E> := Success(agent);
    sent, ending := HandleChatMessage(ok, (a: A, prompt: string) => [" "], "hello", None, markerId);
    assert Concat([" "]) == " " by {
      assert [" "][..0] == [];
    }
  }
}

=== FILE: documents.dfy ===
/**
 * The documents a conversation is about, and the description text a
 * per-document tool carries.
 */
module Documents {
  import opened Wrappers
  import opened PyText

  /** The structured metadata of an SEC filing. `docType` is the filing type's
      value (such as "10-K"); `quarter` is absent for annual filings. */
  datatype SecDocumentMetadata = SecDocumentMetadata(
    companyName: string,
    companyTicker: string,
    docType: string,
    year: int,
    quarter: Option<int>)

  /** A document of the conversation. `id` is the text form of its identity;
      `secMetadata` is present exactly when its metadata map has the SEC key. */
  datatype Document = Document(id: string, url: string, secMetadata: Option<SecDocumentMetadata>)

  predicate IsSecDocument(d: Document) {
    d.secMetadata.Some?
  }

  /** The ids of `docs`, in order. */
  function DocIds(docs: seq<Document>): (r: seq<string>)
    ensures |r| == |docs|
    ensures forall i :: 0 <= i < |docs| ==> r[i] == docs[i].id
  {
    seq(|docs|, i requires 0 <= i < |docs| => docs[i].id)
  }

  /** No later document shares the id of `docs[i]`: in a dict keyed by id,
      its entry is the one that stays. */
  predicate IsLastWithId(docs: seq<Document>, i: nat)
    requires i < |docs|
  {
    forall j :: i < j < |docs| ==> docs[j].id != docs[i].id
  }

  /** Python truthiness of an optional quarter: present and not zero. */
  predicate HasQuarter(m: SecDocumentMetadata) {
    m.quarter.Some? && m.quarter.value != 0
  }

  /** The period a filing covers: "{year} Q{quarter}", or just the year. */
  function TimePeriod(m: SecDocumentMetadata): (r: string)
    ensures HasQuarter(m) ==> Split(r, ' ') == [IntToString(m.year), "Q" + IntToString(m.quarter.value)]
    ensures !HasQuarter(m) ==> r == IntToString(m.year) && ParseInt(r) == Some(m.year)
  {
    if HasQuarter(m) then
      var y := IntToString(m.year);
      var q := "Q" + IntToString(m.quarter.value);
      assert ' ' !in y && ' ' !in q by {
        assert IsSpace(' ');
        assert forall i :: 1 <= i < |q| ==> q[i] == IntToString(m.quarter.value)[i - 1];
      }
      SplitWithoutSeparator(q, ' ');
      SplitAtFirstSeparator(y, ' ', q);
      assert y + " Q" + IntToString(m.quarter.value) == y + [' '] + q;
      y + " Q" + IntToString(m.quarter.value)
    else
      ParseIntOfIntToString(m.year);
      IntToString(m.year)
  }

  /** The description of a document without SEC metadata. */
  const GenericDescription: string :=
    "A document containing useful"
    + " information that the user pre-selected"
    + " to discuss with the assistant."

  /** The description of an SEC filing. */
  function SecDescription(m: SecDocumentMetadata): string {
    "A SEC " + m.docType + " filing describing the financials of " + m.companyName
      + (" (" + m.companyTicker + ")") + (" for the " + TimePeriod(m) + " time period.")
  }

  /** Each variable part of a six-part text is an infix of it. */
  lemma SixParts(a: string, t: string, b: string, n: string, k: string, p: string)
    ensures var s := a + t + b + n + k + p;
      IsInfix(t, s) && IsInfix(n, s) && IsInfix(k, s) && IsInfix(p, s)
  {
    var p1 := a + t;
    var p2 := p1 + b;
    var p3 := p2 + n;
    var p4 := p3 + k;
    InfixEnd(a, t);
    InfixExtend(t, p1, b);
    InfixExtend(t, p2, n);
    InfixExtend(t, p3, k);
    InfixExtend(t, p4, p);
    InfixEnd(p2, n);
    InfixExtend(n, p3, k);
    InfixExtend(n, p4, p);
    InfixEnd(p3, k);
    InfixExtend(k, p4, p);
    InfixEnd(p4, p);
  }

  /** The filing type, company, ticker and period each appear in an SEC
      description, and it differs from the generic one. */
  lemma SecDescriptionMentions(m: SecDocumentMetadata)
    ensures IsInfix(m.docType, SecDescription(m))
    ensures IsInfix(m.companyName, SecDescription(m))
    ensures IsInfix(" (" + m.companyTicker + ")", SecDescription(m))
    ensures IsInfix(" for the " + TimePeriod(m) + " time period.", SecDescription(m))
    ensures SecDescription(m) != GenericDescription
  {
    SixParts("A SEC ", m.docType, " filing describing the financials of ", m.companyName,
             " (" + m.companyTicker + ")", " for the " + TimePeriod(m) + " time period.");
    assert SecDescription(m)[2] == 'S';
    GenericDescriptionThirdChar();
  }

  lemma GenericDescriptionThirdChar()
    ensures GenericDescription[2] == 'd'
  {
    assert GenericDescription[2] == 'd';
  }

  /** The description of a document's citation tool: a sentence naming the
      filing type, company, ticker and period for an SEC filing, the generic
      sentence otherwise. */
  function BuildDescriptionForDocument(d: Document): (r: string)
    ensures d.secMetadata.None? <==> r == GenericDescription
    ensures d.secMetadata.Some? ==>
      var m := d.secMetadata.value;
      && IsInfix(m.docType, r)
      && IsInfix(m.companyName, r)
      && IsInfix(" (" + m.companyTicker + ")", r)
      && IsInfix(" for the " + TimePeriod(m) + " time period.", r)
  {
    match d.secMetadata
    case None => GenericDescription
    case Some(m) =>
      SecDescriptionMentions(m);
      SecDescription(m)
  }

  /** An SEC 10-Q of ACME for the first quarter of 2023 is described with
      "ACME" and "2023 Q1". */
  lemma YearText()
    ensures IntToString(2023) == "2023" && IntToString(1) == "1"
  {
    assert NatToDigits(2) == "2";
    assert NatToDigits(20) == "20";
    assert NatToDigits(202) == "202";
  }

  lemma AcmePeriod(m: SecDocumentMetadata)
    requires m.year == 2023 && m.quarter == Some(1)
    ensures TimePeriod(m) == "2023 Q1"
  {
    YearText();
  }

  lemma AcmeQuarterlyDescription()
    ensures var m := SecDocumentMetadata("ACME Corp", "ACME", "10-Q", 2023, Some(1));
            var r := BuildDescriptionForDocument(Document("doc-1", "https://example.com/acme.pdf", Some(m)));
            IsInfix("ACME", r) && IsInfix("2023 Q1", r)
  {
    var m := SecDocumentMetadata("ACME Corp", "ACME", "10-Q", 2023, Some(1));
    var r := BuildDescriptionForDocument(Document("doc-1", "https://example.com/acme.pdf", Some(m)));
    AcmePeriod(m);
    InfixOfConcat(" (", "ACME", ")");
    InfixTransitive("ACME", " (" + "ACME" + ")", r);
    InfixOfConcat(" for the ", "2023 Q1", " time period.");
    InfixTransitive("2023 Q1", " for the " + "2023 Q1" + " time period.", r);
  }
}

=== FILE: events.dfy ===
/**
 * Translation of the agent's lifecycle events into sub-process records for
 * the client: the three-way payload classifier, the citation extractor and
 * the record one event produces.
 *
 * Payloads are a tagged union decided where the event is raised: each
 * optional field says whether the payload dictionary holds that key, and
 * its value says what shape the value has.
 */
module Events {
  import opened Wrappers
  import opened PyText
  import opened PyDict
  import opened Seqs

  /** The lifecycle event kinds of the agent framework. */
  datatype EventType =
    | Chunking | NodeParsing | Embedding | Llm | Query | Retrieve | Synthesize
    | Tree | SubQuestion | Templating | FunctionCall | Reranking | Exception | AgentStep

  /** Event kinds the handler asks the framework not to deliver. */
  const IgnoredEvents: set<EventType> := {Chunking, NodeParsing}

  /** A metadata value of a retrieved node, as far as `int()` distinguishes it. */
  datatype MetaValue = MetaStr(s: string) | MetaInt(i: int) | MetaNone

  /** A retrieved node: with a metadata dictionary and possibly a text
      attribute, or without metadata. */
  datatype Node = TextNode(metadata: Dict<string, MetaValue>, text: Option<string>) | NodeWithoutMetadata

  /** An entry of a response's source nodes: a scored wrapper around a node,
      or a value with no `node` attribute. */
  datatype SourceNode = NodeWithScore(node: Node) | BareNode

  datatype Citation = Citation(documentId: MetaValue, pageNumber: int, text: string)

  /** The value under the response key: a response object exposing its text
      and its source nodes, or anything else. */
  datatype ResponseValue = ResponseObject(response: Option<string>, sourceNodes: seq<SourceNode>) | OtherValue

  /** The value under the function-output key. */
  datatype FunctionOutput = OutputStr(s: string) | OutputOther

  /** An event payload; `S` is the framework's sub-question/answer pair. */
  datatype Payload<S> = Payload(
    response: Option<ResponseValue>,
    subQuestion: Option<S>,
    functionOutput: Option<FunctionOutput>)

  /** A question/answer record with its citations. */
  datatype QAEntry = QAEntry(question: string, answer: string, citations: seq<Citation>)

  /** A value of the metadata map: a list of synthesized question/answer
      records, or the question/answer pair converted from the framework's pair
      (the conversion is not part of this model, so its argument stands for
      it). */
  datatype MetadataEntry<S> = SubQuestions(entries: seq<QAEntry>) | SubQuestionPair(pair: S)

  type MetadataMap<S> = Dict<string, MetadataEntry<S>>

  const SubQuestionsKey: string := "sub_questions"
  const SubQuestionKey: string := "sub_question"
  const PageLabelKey: string := "page_label"
  const DocumentIdKey: string := "db_document_id"
  const PlaceholderQuestion: string := "What are the main business focus areas?"
  /** Characters of node text quoted in a citation. */
  const CitationTextLimit: nat := 200

  /** Where a record comes from: an agent event, or the marker that the engine
      has been constructed. */
  datatype Source = EventSource(eventType: EventType) | ConstructedQueryEngine

  /** What is put on the output channel: a sub-process record or a text
      snapshot of the streamed answer. */
  datatype Record<S> =
    | SubProcess(source: Source, hasEnded: bool, eventId: string, metadataMap: Option<MetadataMap<S>>)
    | Streamed(content: string)

  // ---------------------------------------------------------------------------
  // Citations
  // ---------------------------------------------------------------------------

  /** Python's `int(v)`: `None` stands for the `ValueError` or `TypeError` raised. */
  function PyInt(v: MetaValue): (r: Option<int>)
    ensures v.MetaNone? ==> r.None?
    ensures v.MetaInt? ==> r == Some(v.i)
    ensures v.MetaStr? && Blank(v.s) ==> r.None?
    ensures v.MetaStr? ==> r == ParseInt(v.s)
  {
    match v
    case MetaStr(s) => ParseInt(s)
    case MetaInt(i) => Some(i)
    case MetaNone => None
  }

  /** Python's `str(x)` of an optional string. */
  function PyStr(o: Option<string>): (r: string)
    ensures o.Some? ==> r == o.value
    ensures o.None? ==> r == "None"
  {
    match o
    case Some(s) => s
    case None => "None"
  }

  /** The node text a citation quotes: its text, or "" when it has none. */
  function NodeText(n: Node): string
    requires n.TextNode?
  {
    if n.text.Some? then n.text.value else ""
  }

  /** Whether a source node yields a citation: it wraps a node with metadata
      holding both keys, and its page label is an integer. */
  predicate Cites(n: SourceNode) {
    && n.NodeWithScore? && n.node.TextNode?
    && Get(n.node.metadata, DocumentIdKey).Some?
    && Get(n.node.metadata, PageLabelKey).Some?
    && PyInt(Get(n.node.metadata, PageLabelKey).value).Some?
  }

  /** The citation of one source node, if it yields one. */
  function CitationFor(n: SourceNode): (r: Option<Citation>)
    ensures r.Some? <==> Cites(n)
    ensures r.Some? ==>
      && r.value.documentId == Get(n.node.metadata, DocumentIdKey).value
      && Some(r.value.pageNumber) == PyInt(Get(n.node.metadata, PageLabelKey).value)
      && |r.value.text| == (if |NodeText(n.node)| < CitationTextLimit then |NodeText(n.node)| else CitationTextLimit)
      && r.value.text <= NodeText(n.node)
  {
    if !(n.NodeWithScore? && n.node.TextNode?) then None
    else
      var md := n.node.metadata;
      var docId := Get(md, DocumentIdKey);
      var pageLabel := Get(md, PageLabelKey);
      if docId.None? || pageLabel.None? then None
      else
        match PyInt(pageLabel.value)
        case Some(page) => Some(Citation(docId.value, page, Take(NodeText(n.node), CitationTextLimit)))
        case None => None
  }

  /** The citations of the source nodes that yield one, in node order. */
  function ExtractCitations(nodes: seq<SourceNode>): seq<Citation> {
    MapSome(CitationFor, nodes)
  }

  /** The citations extracted are exactly those of the citing nodes, one per
      citing node, in node order. */
  lemma ExtractCitationsSpec(nodes: seq<SourceNode>)
    ensures |ExtractCitations(nodes)| == |Filter(Cites, nodes)|
    ensures forall i :: 0 <= i < |ExtractCitations(nodes)| ==>
      Some(ExtractCitations(nodes)[i]) == CitationFor(Filter(Cites, nodes)[i])
  {
    MapSomeSpec(CitationFor, Cites, nodes);
  }

  /** Extraction distributes over concatenation: each node is judged on its own. */
  lemma ExtractCitationsAppend(a: seq<SourceNode>, b: seq<SourceNode>)
    ensures ExtractCitations(a + b) == ExtractCitations(a) + ExtractCitations(b)
  {
    MapSomeAppend(CitationFor, a, b);
  }

  /** Nodes without a citation are skipped silently: they leave no trace. */
  lemma ExtractCitationsEmpty(nodes: seq<SourceNode>)
    ensures ExtractCitations(nodes) == [] <==> forall i :: 0 <= i < |nodes| ==> !Cites(nodes[i])
  {
    MapSomeEmpty(CitationFor, nodes);
  }

  // ---------------------------------------------------------------------------
  // Classification
  // ---------------------------------------------------------------------------

  /** The metadata map of one event: citations from a response object take
      precedence, then a sub-question pair, then a function output string. */
  function GetMetadataFromEvent<S>(eventType: EventType, payload: Payload<S>): (r: MetadataMap<S>)
    ensures |r| <= 1
    ensures payload.response.Some? ==>
      (r != [] <==> payload.response.value.ResponseObject?
                    && ExtractCitations(payload.response.value.sourceNodes) != [])
    ensures payload.response.Some? && r != [] ==>
      r == [(SubQuestionsKey, SubQuestions([QAEntry(PlaceholderQuestion,
               PyStr(payload.response.value.response),
               ExtractCitations(payload.response.value.sourceNodes))]))]
    ensures payload.response.None? && eventType == SubQuestion && payload.subQuestion.Some? ==>
      r == [(SubQuestionKey, SubQuestionPair(payload.subQuestion.value))]
    ensures payload.response.None? && eventType == FunctionCall && payload.functionOutput.Some? ==>
      && (r != [] <==> payload.functionOutput.value.OutputStr?)
      && (payload.functionOutput.value.OutputStr? ==>
            r == [(SubQuestionsKey, SubQuestions([QAEntry(PlaceholderQuestion, payload.functionOutput.value.s, [])]))])
    ensures r != [] ==> (r[0].0 == SubQuestionKey <==> r[0].1.SubQuestionPair?)
  {
    if payload.response.Some? then
      match payload.response.value
      case ResponseObject(text, nodes) =>
        var citations := ExtractCitations(nodes);
        if citations != [] then
          [(SubQuestionsKey, SubQuestions([QAEntry(PlaceholderQuestion, PyStr(text), citations)]))]
        else []
      case OtherValue => []
    else if eventType == SubQuestion && payload.subQuestion.Some? then
      [(SubQuestionKey, SubQuestionPair(payload.subQuestion.value))]
    else if eventType == FunctionCall && payload.functionOutput.Some? then
      match payload.functionOutput.value
      case OutputStr(s) => [(SubQuestionsKey, SubQuestions([QAEntry(PlaceholderQuestion, s, [])]))]
      case OutputOther => []
    else []
  }

  /** A payload holding a response decides the map alone: neither the event
      kind nor any sub-question or function output changes it. */
  lemma ResponseTakesPrecedence<S>(t1: EventType, t2: EventType, p: Payload<S>,
                                   subQuestion: Option<S>, functionOutput: Option<FunctionOutput>)
    requires p.response.Some?
    ensures GetMetadataFromEvent(t1, p)
         == GetMetadataFromEvent(t2, p.(subQuestion := subQuestion, functionOutput := functionOutput))
    ensures SubQuestionKey !in KeySeq(GetMetadataFromEvent(t1, p))
  {
  }

  /** The map is non-empty exactly when one of the three branches contributes. */
  lemma MetadataNonEmptyIff<S>(eventType: EventType, payload: Payload<S>)
    ensures GetMetadataFromEvent(eventType, payload) != [] <==>
      if payload.response.Some? then
        payload.response.value.ResponseObject?
        && exists i :: 0 <= i < |payload.response.value.sourceNodes| && Cites(payload.response.value.sourceNodes[i])
      else
        || (eventType == SubQuestion && payload.subQuestion.Some?)
        || (eventType == FunctionCall && payload.functionOutput.Some? && payload.functionOutput.value.OutputStr?)
  {
    if payload.response.Some? && payload.response.value.ResponseObject? {
      ExtractCitationsEmpty(payload.response.value.sourceNodes);
    }
  }

  // ---------------------------------------------------------------------------
  // Records
  // ---------------------------------------------------------------------------

  /** `metadata_map or None`: an empty map is sent as `None`. */
  function NoneIfEmpty<S>(m: MetadataMap<S>): (r: Option<MetadataMap<S>>)
    ensures r.None? <==> m == []
    ensures r.Some? ==> r.value == m
  {
    if m == [] then None else Some(m)
  }

  /** The records one event delivered to the handler puts on the channel. A
      missing payload (`None`) makes the membership test raise `TypeError`
      inside the detached task, so nothing is sent; a closed channel drops
      the record. */
  function AsyncOnEvent<S>(closed: bool, eventType: EventType, payload: Option<Payload<S>>,
                           eventId: string, isStart: bool): (r: seq<Record<S>>)
    ensures |r| <= 1
    ensures |r| == 1 <==> !closed && payload.Some?
    ensures |r| == 1 ==>
      && r[0].SubProcess?
      && r[0].source == EventSource(eventType)
      && r[0].eventId == eventId
      && r[0].hasEnded == !isStart
      && (r[0].metadataMap.None? <==> GetMetadataFromEvent(eventType, payload.value) == [])
      && (r[0].metadataMap.Some? ==> r[0].metadataMap.value == GetMetadataFromEvent(eventType, payload.value))
  {
    if payload.None? then []
    else
      var metadataMap := NoneIfEmpty(GetMetadataFromEvent(eventType, payload.value));
      if closed then []
      else [SubProcess(EventSource(eventType), !isStart, eventId, metadataMap)]
  }

  /** An event as the framework delivers it: ignored kinds never reach the
      handler, every other kind goes through `AsyncOnEvent`. */
  function OnEvent<S>(closed: bool, eventType: EventType, payload: Option<Payload<S>>,
                      eventId: string, isStart: bool): (r: seq<Record<S>>)
    ensures eventType in IgnoredEvents ==> r == []
    ensures eventType !in IgnoredEvents ==> r == AsyncOnEvent(closed, eventType, payload, eventId, isStart)
  {
    if eventType in IgnoredEvents then [] else AsyncOnEvent(closed, eventType, payload, eventId, isStart)
  }

  /** The start and the end of one event, each delivered with its own payload:
      both records name the event's source and id, only the end has ended,
      and each carries the map of its own payload. With equal payloads they
      differ only in `hasEnded`. */
  lemma StartAndEndRecordsPair<S>(eventType: EventType, startPayload: Payload<S>,
                                  endPayload: Payload<S>, eventId: string)
    requires eventType !in IgnoredEvents
    ensures var s := OnEvent(false, eventType, Some(startPayload), eventId, true);
            var e := OnEvent(false, eventType, Some(endPayload), eventId, false);
            && |s| == 1 && |e| == 1
            && s[0].source == e[0].source == EventSource(eventType)
            && s[0].eventId == e[0].eventId == eventId
            && !s[0].hasEnded && e[0].hasEnded
            && s[0].metadataMap == NoneIfEmpty(GetMetadataFromEvent(eventType, startPayload))
            && e[0].metadataMap == NoneIfEmpty(GetMetadataFromEvent(eventType, endPayload))
            && (startPayload == endPayload ==> e[0] == s[0].(hasEnded := true))
  {
  }

  // ---------------------------------------------------------------------------
  // Concrete nodes
  // ---------------------------------------------------------------------------

  function PagedNode(pageLabel: MetaValue, text: string): SourceNode {
    NodeWithScore(TextNode([(DocumentIdKey, MetaStr("doc-1")), (PageLabelKey, pageLabel)], Some(text)))
  }

  /** A node whose page label parses cites that page, quoting its short text whole. */
  lemma PagedNodeCites(pageLabel: MetaValue, page: int, text: string)
    requires PyInt(pageLabel) == Some(page)
    requires |text| <= CitationTextLimit
    ensures CitationFor(PagedNode(pageLabel, text)) == Some(Citation(MetaStr("doc-1"), page, text))
  {
    PagedMetadata(pageLabel);
  }

  lemma PagedMetadata(pageLabel: MetaValue)
    ensures Get(PagedNode(pageLabel, "").node.metadata, DocumentIdKey) == Some(MetaStr("doc-1"))
    ensures Get(PagedNode(pageLabel, "").node.metadata, PageLabelKey) == Some(pageLabel)
  {
    var md := PagedNode(pageLabel, "").node.metadata;
    assert PageLabelKey[0] != DocumentIdKey[0];
    assert md[1..] == [(PageLabelKey, pageLabel)];
  }

  /** A page label "3" cites page 3 with the node's text. */
  lemma PlainPageLabelCites()
    ensures CitationFor(PagedNode(MetaStr("3"), "revenue grew")) == Some(Citation(MetaStr("doc-1"), 3, "revenue grew"))
  {
    ParseIntPlainDigits();
    PagedNodeCites(MetaStr("3"), 3, "revenue grew");
  }

  /** A roman-numeral page label yields no citation. */
  lemma RomanPageLabelSkipped()
    ensures CitationFor(PagedNode(MetaStr("iv"), "preface")) == None
  {
    ParseIntRejectsRoman();
  }

  /** A node without a page label yields no citation, so a response whose
      only node lacks one leaves the map empty. */
  lemma MissingPageLabelSkipped<S>(eventType: EventType)
    ensures var n := NodeWithScore(TextNode([(DocumentIdKey, MetaStr("doc-1"))], Some("text")));
            var p: Payload<S> := Payload(Some(ResponseObject(Some("answer"), [n])), None, None);
            && CitationFor(n) == None
            && GetMetadataFromEvent(eventType, p) == []
  {
    var n := NodeWithScore(TextNode([(DocumentIdKey, MetaStr("doc-1"))], Some("text")));
    assert KeySeq(n.node.metadata) == [DocumentIdKey];
    assert PageLabelKey !in KeySeq(n.node.metadata);
  }
}

=== FILE: index_map.dfy ===
/**
 * Building the per-conversation map from document id to vector index: load
 * every index from the shared storage context, or, when loading fails as a
 * whole, rebuild one index per document. The storage layer, the loader and
 * the per-document index builder are parameters of the model.
 */
module IndexMap {
  import opened Wrappers
  import opened PyDict
  import opened Documents

  /** The storage context the loader reads from: the one found under the
      bucket namespace, or a fresh one created and persisted because none
      was found there. */
  datatype StorageContext = FoundContext | CreatedContext

  /** Errors that end the construction of a chat engine. */
  datatype EngineError =
    | BuildFailed(docId: string)   // fetching, reading, indexing or persisting a document failed
    | MissingDocument(key: string) // an index-map key names no document

  /** The storage context in use, given whether one exists under the namespace. */
  function GetStorageContext(exists_: bool): (c: StorageContext)
    ensures c == FoundContext <==> exists_
  {
    if exists_ then FoundContext else CreatedContext
  }

  /** The load path: `dict(zip(ids, load(context, ids)))`, or `None` when the
      loader fails as a whole. Its keys are ids of `docs`, and all of them when
      the loader returns at least one index per id. */
  function LoadIndexMap<I>(docs: seq<Document>, ctx: StorageContext,
                           load: (StorageContext, seq<string>) -> Option<seq<I>>): (r: Option<Dict<string, I>>)
    ensures r.Some? <==> load(ctx, DocIds(docs)).Some?
    ensures r.Some? ==> UniqueKeys(r.value)
    ensures r.Some? ==> forall k :: k in KeySeq(r.value) ==> k in DocIds(docs)
    ensures r.Some? && |load(ctx, DocIds(docs)).value| >= |docs| ==>
      forall i :: 0 <= i < |docs| ==> docs[i].id in KeySeq(r.value)
    ensures r.Some? ==>
      forall i :: 0 <= i < |docs| && i < |load(ctx, DocIds(docs)).value| && IsLastWithId(docs, i) ==>
        Get(r.value, docs[i].id) == Some(load(ctx, DocIds(docs)).value[i])
  {
    var ids := DocIds(docs);
    match load(ctx, ids)
    case None => None
    case Some(indices) =>
      var pairs := Zip(ids, indices);
      var m := FromPairs(pairs);
      assert forall k :: k in KeySeq(pairs) ==> k in ids;
      assert |indices| >= |docs| ==> forall i :: 0 <= i < |docs| ==> KeySeq(pairs)[i] == docs[i].id;
      forall i | 0 <= i < |docs| && i < |indices| && IsLastWithId(docs, i)
        ensures Get(m, docs[i].id) == Some(indices[i])
      {
        assert pairs[i] == (docs[i].id, indices[i]);
        forall j | i < j < |pairs| ensures pairs[j].0 != pairs[i].0 {
          assert pairs[j].0 == docs[j].id;
        }
        FromPairsLastWins(pairs, i);
      }
      Some(m)
  }

  /** With distinct document ids the loaded map is the zip itself: its
      entries follow the document order, and its keys are all the ids when
      the loader returns an index per id. */
  lemma LoadIndexMapIsZip<I>(docs: seq<Document>, ctx: StorageContext,
                             load: (StorageContext, seq<string>) -> Option<seq<I>>)
    requires forall i, j :: 0 <= i < j < |docs| ==> docs[i].id != docs[j].id
    requires load(ctx, DocIds(docs)).Some?
    ensures LoadIndexMap(docs, ctx, load) == Some(Zip(DocIds(docs), load(ctx, DocIds(docs)).value))
    ensures |load(ctx, DocIds(docs)).value| >= |docs| ==> KeySeq(LoadIndexMap(docs, ctx, load).value) == DocIds(docs)
  {
    var ps := Zip(DocIds(docs), load(ctx, DocIds(docs)).value);
    assert UniqueKeys(ps);
    FromDistinctPairs(ps);
  }

  /** The position of the first document whose index cannot be built, or
      `|docs|` when every one can. */
  function FirstUnbuildable<I>(docs: seq<Document>, build: Document -> Option<I>): (n: nat)
    ensures n <= |docs|
    ensures forall j :: 0 <= j < n ==> build(docs[j]).Some?
    ensures n < |docs| ==> build(docs[n]).None?
    decreases |docs|
  {
    if |docs| == 0 || build(docs[0]).None? then 0
    else 1 + FirstUnbuildable(docs[1..], build)
  }

  /** The rebuild loop from `docs` on, adding to `acc`: every document gets an
      index under its id, and the first document whose index cannot be built ends
      the loop with its error. */
  function RebuildFrom<I>(docs: seq<Document>, build: Document -> Option<I>,
                          acc: Dict<string, I>): (r: Result<Dict<string, I>, EngineError>)
    requires UniqueKeys(acc)
    ensures r.Success? <==> forall i :: 0 <= i < |docs| ==> build(docs[i]).Some?
    ensures r.Failure? ==> r.error == BuildFailed(docs[FirstUnbuildable(docs, build)].id)
    ensures r.Success? ==> UniqueKeys(r.value)
    ensures r.Success? ==> forall k :: k in KeySeq(r.value) <==> k in KeySeq(acc) || k in DocIds(docs)
    decreases |docs|
  {
    if |docs| == 0 then Success(acc)
    else
      match build(docs[0])
      case None => Failure(BuildFailed(docs[0].id))
      case Some(index) =>
        var acc' := Assign(acc, docs[0].id, index);
        AssignUnique(acc, docs[0].id, index);
        AssignKeySeq(acc, docs[0].id, index);
        var r := RebuildFrom(docs[1..], build, acc');
        assert forall i :: 1 <= i < |docs| ==> docs[1..][i - 1] == docs[i];
        assert forall k :: k in DocIds(docs) <==> k == docs[0].id || k in DocIds(docs[1..]);
        r
  }

  /** The rebuild path: one freshly built index per document, under its id. */
  function RebuildIndexMap<I>(docs: seq<Document>, build: Document -> Option<I>): (r: Result<Dict<string, I>, EngineError>)
    ensures r.Success? <==> forall i :: 0 <= i < |docs| ==> build(docs[i]).Some?
    ensures r.Failure? ==> r.error == BuildFailed(docs[FirstUnbuildable(docs, build)].id)
    ensures r.Success? ==> UniqueKeys(r.value)
    ensures r.Success? ==> forall k :: k in KeySeq(r.value) <==> k in DocIds(docs)
  {
    RebuildFrom(docs, build, [])
  }

  /** Whether some document's index cannot be built. */
  predicate SomeUnbuildable<I>(docs: seq<Document>, build: Document -> Option<I>) {
    exists i :: 0 <= i < |docs| && build(docs[i]).None?
  }

  /** `build_doc_id_to_index_map`: the load path when the loader succeeds,
      otherwise the rebuild path. It fails exactly when the loader fails and
      some document's index cannot be built, with the first such document. */
  function BuildDocIdToIndexMap<I>(docs: seq<Document>, contextExists: bool,
                                   load: (StorageContext, seq<string>) -> Option<seq<I>>,
                                   build: Document -> Option<I>): (r: Result<Dict<string, I>, EngineError>)
    ensures load(GetStorageContext(contextExists), DocIds(docs)).Some? ==>
      r == Success(LoadIndexMap(docs, GetStorageContext(contextExists), load).value)
    ensures load(GetStorageContext(contextExists), DocIds(docs)).None? ==> r == RebuildIndexMap(docs, build)
    ensures r.Failure? <==> load(GetStorageContext(contextExists), DocIds(docs)).None? && SomeUnbuildable(docs, build)
    ensures r.Failure? ==> r.error == BuildFailed(docs[FirstUnbuildable(docs, build)].id)
    ensures r.Success? ==> UniqueKeys(r.value)
    ensures r.Success? ==> forall k :: k in KeySeq(r.value) ==> k in DocIds(docs)
  {
    match LoadIndexMap(docs, GetStorageContext(contextExists), load)
    case Some(m) => Success(m)
    case None => RebuildIndexMap(docs, build)
  }

  /** The key set of the map is exactly the set of document ids whenever the
      loader returns one index per id, and always on the rebuild path. */
  lemma IndexMapKeysAreDocIds<I>(docs: seq<Document>, contextExists: bool,
                                 load: (StorageContext, seq<string>) -> Option<seq<I>>,
                                 build: Document -> Option<I>)
    requires BuildDocIdToIndexMap(docs, contextExists, load, build).Success?
    requires var loaded := load(GetStorageContext(contextExists), DocIds(docs));
             loaded.None? || |loaded.value| == |docs|
    ensures var m := BuildDocIdToIndexMap(docs, contextExists, load, build).value;
            forall k :: k in KeySeq(m) <==> k in DocIds(docs)
  {
  }

  lemma {:induction false} RebuildFromPrefix<I>(docs: seq<Document>, build: Document -> Option<I>, n: nat)
    requires n <= |docs|
    requires forall i :: 0 <= i < |docs| ==> build(docs[i]).Some?
    ensures RebuildFrom(docs[n..], build, FromPairs(BuiltPairs(docs[..n], build)))
         == Success(FromPairs(BuiltPairs(docs, build)))
    decreases |docs| - n
  {
    if n < |docs| {
      var ps := BuiltPairs(docs[..n + 1], build);
      assert ps[..n] == BuiltPairs(docs[..n], build);
      assert docs[n..][1..] == docs[n + 1..];
      RebuildFromPrefix(docs, build, n + 1);
    } else {
      assert docs[..n] == docs;
    }
  }

  /** The rebuild path agrees with the dict comprehension
      `{doc.id: build(doc) for doc in docs}` when every build succeeds; with
      distinct ids its entries follow the document order. */
  lemma RebuildIsComprehension<I>(docs: seq<Document>, build: Document -> Option<I>)
    requires forall i :: 0 <= i < |docs| ==> build(docs[i]).Some?
    ensures RebuildIndexMap(docs, build) == Success(FromPairs(BuiltPairs(docs, build)))
    ensures UniqueKeys(BuiltPairs(docs, build)) ==> RebuildIndexMap(docs, build) == Success(BuiltPairs(docs, build))
  {
    RebuildFromPrefix(docs, build, 0);
    assert docs[0..] == docs;
    assert BuiltPairs(docs[..0], build) == [];
    if UniqueKeys(BuiltPairs(docs, build)) {
      FromDistinctPairs(BuiltPairs(docs, build));
    }
  }

  /** `[(doc.id, build(doc)) for doc in docs]` for documents that all build. */
  function BuiltPairs<I>(docs: seq<Document>, build: Document -> Option<I>): (r: seq<(string, I)>)
    requires forall i :: 0 <= i < |docs| ==> build(docs[i]).Some?
    ensures |r| == |docs|
    ensures forall i :: 0 <= i < |docs| ==> r[i] == (docs[i].id, build(docs[i]).value)
  {
    seq(|docs|, i requires 0 <= i < |docs| => (docs[i].id, build(docs[i]).value))
  }
}

=== FILE: py_dict.dfy ===
/**
 * Python's `dict` as the core uses it: an association list in insertion
 * order with each key at most once. Assigning to a present key keeps its
 * position and replaces its value; assigning a new key appends it.
 */
module PyDict {
  import opened Wrappers

  /** The `items()` of a dict, in insertion order (also used for any list of pairs). */
  type Dict<K, V> = seq<(K, V)>

  /** The keys of `d` in iteration order. */
  function KeySeq<K, V>(d: Dict<K, V>): (r: seq<K>)
    ensures |r| == |d|
    ensures forall i :: 0 <= i < |d| ==> r[i] == d[i].0
  {
    seq(|d|, i requires 0 <= i < |d| => d[i].0)
  }

  predicate UniqueKeys<K(==), V>(d: Dict<K, V>) {
    forall i, j :: 0 <= i < j < |d| ==> d[i].0 != d[j].0
  }

  lemma KeySeqCons<K, V>(p: (K, V), d: Dict<K, V>)
    ensures KeySeq([p] + d) == [p.0] + KeySeq(d)
  {
  }

  lemma KeySeqSnoc<K, V>(d: Dict<K, V>, p: (K, V))
    ensures KeySeq(d + [p]) == KeySeq(d) + [p.0]
  {
  }

  /** `d.get(k)`. */
  function Get<K(==), V>(d: Dict<K, V>, k: K): (r: Option<V>)
    ensures r.Some? <==> k in KeySeq(d)
    ensures r.Some? ==> exists i :: 0 <= i < |d| && d[i].0 == k && d[i].1 == r.value
    decreases |d|
  {
    if |d| == 0 then None
    else if d[0].0 == k then Some(d[0].1)
    else
      var r := Get(d[1..], k);
      KeySeqCons(d[0], d[1..]);
      assert [d[0]] + d[1..] == d;
      assert forall i :: 0 <= i < |d[1..]| ==> d[1..][i] == d[i + 1];
      r
  }

  /** `d[k] = v`. */
  function Assign<K(==), V>(d: Dict<K, V>, k: K, v: V): (r: Dict<K, V>)
    ensures k in KeySeq(d) ==> |r| == |d|
    ensures k !in KeySeq(d) ==> r == d + [(k, v)]
    decreases |d|
  {
    if |d| == 0 then [(k, v)]
    else if d[0].0 == k then [(k, v)] + d[1..]
    else
      KeySeqCons(d[0], d[1..]);
      assert [d[0]] + d[1..] == d;
      [d[0]] + Assign(d[1..], k, v)
  }

  /** Assigning to a present key leaves the key order alone. */
  lemma {:induction false} AssignKeySeq<K, V>(d: Dict<K, V>, k: K, v: V)
    ensures k in KeySeq(d) ==> KeySeq(Assign(d, k, v)) == KeySeq(d)
    ensures KeySeq(Assign(d, k, v)) == if k in KeySeq(d) then KeySeq(d) else KeySeq(d) + [k]
    decreases |d|
  {
    if |d| > 0 {
      KeySeqCons(d[0], d[1..]);
      assert [d[0]] + d[1..] == d;
      if d[0].0 == k {
        KeySeqCons((k, v), d[1..]);
      } else {
        AssignKeySeq(d[1..], k, v);
        KeySeqCons(d[0], Assign(d[1..], k, v));
      }
    }
  }

  /** After `d[k] = v`, `k` maps to `v` and every other key is unaffected. */
  lemma {:induction false} AssignGet<K, V>(d: Dict<K, V>, k: K, v: V, k': K)
    ensures Get(Assign(d, k, v), k) == Some(v)
    ensures k' != k ==> Get(Assign(d, k, v), k') == Get(d, k')
    decreases |d|
  {
    if |d| > 0 && d[0].0 != k {
      AssignGet(d[1..], k, v, k');
      assert Assign(d, k, v)[1..] == Assign(d[1..], k, v);
    } else if |d| > 0 {
      assert Assign(d, k, v)[1..] == d[1..];
    }
  }

  /** Assignment keeps the keys distinct. */
  lemma AssignUnique<K, V>(d: Dict<K, V>, k: K, v: V)
    requires UniqueKeys(d)
    ensures UniqueKeys(Assign(d, k, v))
  {
    var r := Assign(d, k, v);
    AssignKeySeq(d, k, v);
    if k in KeySeq(d) {
      forall i, j | 0 <= i < j < |r| ensures r[i].0 != r[j].0 {
        assert r[i].0 == KeySeq(r)[i] == KeySeq(d)[i] == d[i].0;
        assert r[j].0 == KeySeq(r)[j] == KeySeq(d)[j] == d[j].0;
      }
    } else {
      forall i, j | 0 <= i < j < |r| ensures r[i].0 != r[j].0 {
        if j == |d| {
          assert r[i] == d[i] && KeySeq(d)[i] == d[i].0;
        } else {
          assert r[i] == d[i] && r[j] == d[j];
        }
      }
    }
  }

  /** After `d[k] = v` the keys are those of `d` and `k`. */
  lemma AssignKeys<K, V>(d: Dict<K, V>, k: K, v: V)
    ensures forall x :: x in KeySeq(Assign(d, k, v)) <==> x in KeySeq(d) || x == k
  {
    AssignKeySeq(d, k, v);
  }

  lemma SnocKeys<K, V>(init: Dict<K, V>, last: (K, V), ps: Dict<K, V>)
    requires ps == init + [last]
    ensures forall x :: x in KeySeq(ps) <==> x in KeySeq(init) || x == last.0
  {
    KeySeqSnoc(init, last);
  }

  /** `dict(pairs)`, or the comprehension `{k: v for ...}`: each key sits
      where it first appeared. */
  function FromPairs<K(==,!new), V>(ps: seq<(K, V)>): (r: Dict<K, V>)
    ensures UniqueKeys(r)
    ensures forall k :: k in KeySeq(r) <==> k in KeySeq(ps)
    decreases |ps|
  {
    if |ps| == 0 then []
    else
      var n := |ps| - 1;
      var init, last := ps[..n], ps[n];
      var prev := FromPairs(init);
      AssignUnique(prev, last.0, last.1);
      AssignKeys(prev, last.0, last.1);
      SnocKeys(init, last, ps);
      Assign(prev, last.0, last.1)
  }

  lemma FromPairsSnoc<K(!new), V>(ps: seq<(K, V)>)
    requires |ps| > 0
    ensures FromPairs(ps) == Assign(FromPairs(ps[..|ps| - 1]), ps[|ps| - 1].0, ps[|ps| - 1].1)
  {
  }

  /** In `dict(pairs)` the last pair for a key wins. */
  lemma {:induction false} FromPairsLastWins<K(!new), V>(ps: seq<(K, V)>, i: nat)
    requires i < |ps|
    requires forall j :: i < j < |ps| ==> ps[j].0 != ps[i].0
    ensures Get(FromPairs(ps), ps[i].0) == Some(ps[i].1)
    decreases |ps|
  {
    var n := |ps| - 1;
    var init, last, k := ps[..n], ps[n], ps[i].0;
    var prev := FromPairs(init);
    FromPairsSnoc(ps);
    assert FromPairs(ps) == Assign(prev, last.0, last.1);
    AssignGet(prev, last.0, last.1, k);
    if i == n {
      assert Get(FromPairs(ps), k) == Some(last.1);
    } else {
      assert k != last.0;
      assert init[i] == ps[i];
      forall j | i < j < |init| ensures init[j].0 != init[i].0 {
        assert init[j] == ps[j];
      }
      FromPairsLastWins(init, i);
      assert Get(prev, k) == Some(ps[i].1);
    }
  }

  /** Pairs with distinct keys already form a dict, in the same order. */
  lemma {:induction false} FromDistinctPairs<K(!new), V>(ps: seq<(K, V)>)
    requires UniqueKeys(ps)
    ensures FromPairs(ps) == ps
    decreases |ps|
  {
    if |ps| > 0 {
      var n := |ps| - 1;
      FromDistinctPairs(ps[..n]);
      assert ps[n].0 !in KeySeq(ps[..n]);
      assert ps[..n] + [ps[n]] == ps;
    }
  }

  /** Python's `zip(a, b)`: pairs up to the shorter length. */
  function Zip<A, B>(a: seq<A>, b: seq<B>): (r: seq<(A, B)>)
    ensures |r| == if |a| < |b| then |a| else |b|
    ensures forall i :: 0 <= i < |r| ==> r[i] == (a[i], b[i])
  {
    seq(if |a| < |b| then |a| else |b|, i requires 0 <= i < |a| && i < |b| => (a[i], b[i]))
  }
}

=== FILE: py_text.dfy ===
/**
 * The parts of Python's `str` and `int` behaviour that the chat core relies
 * on: `str.isspace`, `str.strip()`, `str(int)`, `int(str)` in base 10,
 * `sep.join(...)`, `s.split(sep)` and slicing `s[:n]`.
 */
module PyText {
  import opened Wrappers

  /** Python's `str.isspace` for one character: the Unicode whitespace and
      separator code points (bidirectional class WS, B or S, or category Zs). */
  predicate IsSpace(c: char) {
    var n := c as int;
    || (0x09 <= n <= 0x0D)
    || (0x1C <= n <= 0x20)
    || n == 0x85 || n == 0xA0 || n == 0x1680
    || (0x2000 <= n <= 0x200A)
    || n == 0x2028 || n == 0x2029 || n == 0x202F || n == 0x205F || n == 0x3000
  }

  /** Every character is whitespace (the empty string included). */
  predicate Blank(s: string) {
    forall i :: 0 <= i < |s| ==> IsSpace(s[i])
  }

  lemma BlankCons(c: char, b: string)
    requires IsSpace(c) && Blank(b)
    ensures Blank([c] + b)
  {
    assert forall i :: 1 <= i <= |b| ==> ([c] + b)[i] == b[i - 1];
  }

  /** Python's `s.lstrip()`: the longest suffix of `s` not starting with whitespace. */
  function TrimLeft(s: string): (r: string)
    ensures |r| <= |s| && r == s[|s| - |r|..]
    ensures Blank(s[..|s| - |r|])
    ensures |r| > 0 ==> !IsSpace(r[0])
    decreases |s|
  {
    if |s| > 0 && IsSpace(s[0]) then
      var t := s[1..];
      var r := TrimLeft(t);
      var k := |t| - |r|;
      assert r == t[k..] == s[k + 1..];
      assert s[..k + 1] == [s[0]] + t[..k];
      BlankCons(s[0], t[..k]);
      r
    else s
  }

  /** Python's `s.rstrip()`: the longest prefix of `s` not ending in whitespace. */
  function TrimRight(s: string): (r: string)
    ensures |r| <= |s| && r == s[..|r|]
    ensures Blank(s[|r|..])
    ensures |r| > 0 ==> !IsSpace(r[|r| - 1])
    decreases |s|
  {
    if |s| > 0 && IsSpace(s[|s| - 1]) then
      var r := TrimRight(s[..|s| - 1]);
      assert s[|r|..] == s[..|s| - 1][|r|..] + [s[|s| - 1]];
      r
    else s
  }

  /** Python's `s.strip()` with no argument. */
  function Strip(s: string): (r: string)
    ensures |r| <= |s|
    ensures r == "" <==> Blank(s)
    ensures |r| > 0 ==> !IsSpace(r[0]) && !IsSpace(r[|r| - 1])
  {
    var t := TrimLeft(s);
    var r := TrimRight(t);
    assert Blank(s) ==> t == "";
    assert r == "" ==> Blank(s) by {
      if r == "" {
        assert t[|r|..] == t;
        assert s[..|s| - |t|] == s;
      }
    }
    assert |r| > 0 ==> r[0] == t[0];
    r
  }

  /** A string whose first and last characters are not whitespace is its own strip. */
  lemma StripUnchanged(s: string)
    requires |s| > 0 && !IsSpace(s[0]) && !IsSpace(s[|s| - 1])
    ensures Strip(s) == s
  {
  }

  /** `rstrip` ignores trailing whitespace appended to its argument. */
  lemma {:induction false} TrimRightDropsBlank(s: string, t: string)
    requires Blank(t)
    ensures TrimRight(s + t) == TrimRight(s)
    decreases |t|
  {
    if |t| > 0 {
      var u := t[..|t| - 1];
      assert (s + t)[..|s + t| - 1] == s + u;
      TrimRightDropsBlank(s, u);
    } else {
      assert s + t == s;
    }
  }

  /** `rstrip` of a text ending in a non-blank part only trims that part. */
  lemma {:induction false} TrimRightKeepsPrefix(s: string, t: string)
    requires !Blank(t)
    ensures TrimRight(s + t) == s + TrimRight(t)
    decreases |t|
  {
    var st := s + t;
    assert st[|st| - 1] == t[|t| - 1];
    if IsSpace(t[|t| - 1]) {
      var u := t[..|t| - 1];
      assert st[..|st| - 1] == s + u;
      assert !Blank(u) by {
        var i :| 0 <= i < |t| && !IsSpace(t[i]);
        assert i < |t| - 1 && u[i] == t[i];
      }
      TrimRightKeepsPrefix(s, u);
    }
  }

  /** `lstrip` removes a leading whitespace character and stops at the first
      other one. */
  lemma TrimLeftSkipsOneSpace(c: char, s: string)
    requires IsSpace(c) && |s| > 0 && !IsSpace(s[0])
    ensures TrimLeft([c] + s) == s
  {
    assert ([c] + s)[1..] == s;
  }

  /** Stripping a text framed by whitespace: a leading whitespace character,
      a head that starts with a visible character, a body and a blank tail.
      The result keeps the head and the body up to its last visible character,
      or, for a blank body, the head up to its own. */
  lemma StripFramed(c: char, head: string, body: string, tail: string)
    requires IsSpace(c) && |head| > 0 && !IsSpace(head[0]) && Blank(tail)
    ensures !Blank(body) ==> Strip([c] + (head + body + tail)) == head + TrimRight(body)
    ensures Blank(body) ==> Strip([c] + (head + body + tail)) == TrimRight(head)
  {
    var x := head + body + tail;
    assert x[0] == head[0];
    TrimLeftSkipsOneSpace(c, x);
    assert Strip([c] + x) == TrimRight(x);
    TrimRightDropsBlank(head + body, tail);
    if Blank(body) {
      TrimRightDropsBlank(head, body);
    } else {
      TrimRightKeepsPrefix(head, body);
    }
  }

  // ---------------------------------------------------------------------------
  // Decimal integers: str(int) and int(str)
  // ---------------------------------------------------------------------------

  predicate IsDigit(c: char) {
    '0' <= c <= '9'
  }

  predicate AllDigits(s: string) {
    forall i :: 0 <= i < |s| ==> IsDigit(s[i])
  }

  function DigitChar(d: nat): (c: char)
    requires d < 10
    ensures IsDigit(c)
  {
    ('0' as int + d) as char
  }

  function DigitValue(c: char): (d: nat)
    requires IsDigit(c)
    ensures d < 10
  {
    c as int - '0' as int
  }

  /** The canonical decimal digits of `n`: at least one digit, no leading zero. */
  function NatToDigits(n: nat): (r: string)
    ensures |r| >= 1 && AllDigits(r)
    ensures |r| > 1 ==> r[0] != '0'
    decreases n
  {
    if n < 10 then [DigitChar(n)] else NatToDigits(n / 10) + [DigitChar(n % 10)]
  }

  /** The value of a string of decimal digits, most significant first. */
  function DigitsValue(s: string): nat
    requires AllDigits(s)
    decreases |s|
  {
    if |s| == 0 then 0 else DigitsValue(s[..|s| - 1]) * 10 + DigitValue(s[|s| - 1])
  }

  /** Reading back the digits of `n` gives `n`. */
  lemma {:induction false} DigitsRoundTrip(n: nat)
    ensures DigitsValue(NatToDigits(n)) == n
    decreases n
  {
    if n >= 10 {
      var s := NatToDigits(n);
      DigitsRoundTrip(n / 10);
      assert s[..|s| - 1] == NatToDigits(n / 10);
      assert DigitValue(DigitChar(n % 10)) == n % 10;
    }
  }

  /** Python's `str(n)` for an `int`. */
  function IntToString(n: int): (r: string)
    ensures |r| >= 1
    ensures n >= 0 ==> AllDigits(r)
    ensures n < 0 ==> r[0] == '-' && AllDigits(r[1..])
    ensures !IsSpace(r[0]) && !IsSpace(r[|r| - 1])
    ensures forall i :: 0 <= i < |r| ==> !IsSpace(r[i])
  {
    if n < 0 then "-" + NatToDigits(-n) else NatToDigits(n)
  }

  /** Digits in groups separated by single underscores, the shape Python's
      `int(str)` accepts for the magnitude in base 10 (`"1_000"`, not `"1__0"`). */
  predicate IsDigitGroups(s: string) {
    && |s| > 0 && IsDigit(s[0]) && IsDigit(s[|s| - 1])
    && (forall i :: 0 <= i < |s| ==> IsDigit(s[i]) || s[i] == '_')
    && (forall i, j :: 0 <= i < |s| && 0 <= j < |s| && j == i + 1 ==> s[i] != '_' || s[j] != '_')
  }

  /** The string with every underscore dropped, everything else kept in order. */
  function RemoveUnderscores(s: string): (r: string)
    ensures |r| <= |s|
    ensures '_' !in r
    ensures (forall i :: 0 <= i < |s| ==> IsDigit(s[i]) || s[i] == '_') ==> AllDigits(r)
    ensures '_' !in s ==> r == s
    decreases |s|
  {
    if |s| == 0 then ""
    else if s[0] == '_' then RemoveUnderscores(s[1..])
    else
      var rest := RemoveUnderscores(s[1..]);
      assert (forall i :: 0 <= i < |s| ==> IsDigit(s[i]) || s[i] == '_') ==>
        (forall i :: 0 <= i < |s[1..]| ==> IsDigit(s[1..][i]) || s[1..][i] == '_');
      assert '_' !in s ==> '_' !in s[1..];
      [s[0]] + rest
  }

  /** The magnitude named by a digit-group string. */
  function GroupsValue(s: string): nat
    requires IsDigitGroups(s)
  {
    DigitsValue(RemoveUnderscores(s))
  }

  /** The value of already-stripped text: an optional sign, then digit groups. */
  function ParseSigned(t: string): (r: Option<int>)
    ensures r.Some? ==> |t| > 0 && (IsDigit(t[0]) || t[0] == '+' || t[0] == '-')
    ensures r.Some? ==> forall i :: 1 <= i < |t| ==> IsDigit(t[i]) || t[i] == '_'
  {
    if |t| > 0 && (t[0] == '-' || t[0] == '+') then
      var body := t[1..];
      if IsDigitGroups(body) then
        var m: int := GroupsValue(body);
        Some(if t[0] == '-' then -m else m)
      else None
    else if IsDigitGroups(t) then Some(GroupsValue(t))
    else None
  }

  /**
   * Python's `int(s)` for a `str` argument in base 10: surrounding whitespace
   * is ignored, an optional `+` or `-` sign precedes the digit groups, and
   * anything else raises `ValueError`, here `None`. Non-ASCII whitespace
   * counts as whitespace, but the information separators do not.
   */
  function ParseInt(s: string): (r: Option<int>)
    ensures Blank(s) ==> r == None
    ensures HasInfoSeparator(s) ==> r == None
  {
    if HasInfoSeparator(s) then None else ParseSigned(Strip(s))
  }

  /** U+001C to U+001F: `str.isspace` accepts them, but `int` only skips
      ASCII whitespace among the characters below U+0080, so they stay in the
      text and make it fail. */
  predicate IsInfoSeparator(c: char) {
    0x1C <= c as int <= 0x1F
  }

  predicate HasInfoSeparator(s: string) {
    exists i :: 0 <= i < |s| && IsInfoSeparator(s[i])
  }

  /** A plain digit string is a single digit group whose value is its digits' value. */
  lemma DigitsAreGroups(d: string)
    requires |d| > 0 && AllDigits(d)
    ensures IsDigitGroups(d) && GroupsValue(d) == DigitsValue(d)
  {
    assert forall i :: 0 <= i < |d| ==> d[i] != '_';
  }

  lemma ParseSignedOfNonNegative(n: int)
    requires n >= 0
    ensures ParseSigned(IntToString(n)) == Some(n)
  {
    var d := NatToDigits(n);
    DigitsAreGroups(d);
    DigitsRoundTrip(n);
  }

  lemma ParseSignedOfNegative(n: int)
    requires n < 0
    ensures ParseSigned(IntToString(n)) == Some(n)
  {
    var m: nat := -n;
    var d := NatToDigits(m);
    assert IntToString(n) == "-" + d;
    DigitsAreGroups(d);
    DigitsRoundTrip(m);
    assert GroupsValue(d) == m;
    ParseSignedNegated(d);
  }

  lemma ParseSignedNegated(d: string)
    requires IsDigitGroups(d)
    ensures ParseSigned("-" + d) == Some(-(GroupsValue(d) as int))
  {
    var s := "-" + d;
    assert s[0] == '-' && s[1..] == d;
  }

  /** Decimal text has nothing for `int` to strip. */
  lemma ParseIntOfDecimalText(n: int)
    ensures ParseInt(IntToString(n)) == ParseSigned(IntToString(n))
  {
    assert !HasInfoSeparator(IntToString(n));
    StripUnchanged(IntToString(n));
  }

  /** `int(str(n)) == n`: the decimal text of every integer parses back to it. */
  lemma ParseIntOfIntToString(n: int)
    ensures ParseInt(IntToString(n)) == Some(n)
  {
    ParseIntOfDecimalText(n);
    if n < 0 {
      ParseSignedOfNegative(n);
    } else {
      ParseSignedOfNonNegative(n);
    }
  }

  lemma IntToStringThree()
    ensures IntToString(3) == "3"
  {
  }

  lemma IntToStringTwelve()
    ensures IntToString(12) == "12"
  {
    assert NatToDigits(12) == NatToDigits(1) + [DigitChar(2)];
  }

  /** A page label such as `"3"` parses to its value. */
  lemma ParseIntPlainDigits()
    ensures ParseInt("3") == Some(3)
    ensures ParseInt("12") == Some(12)
  {
    IntToStringThree();
    ParseIntOfIntToString(3);
    IntToStringTwelve();
    ParseIntOfIntToString(12);
  }

  lemma StripPaddedTwelve()
    ensures Strip(" 12\n") == "12"
  {
    assert " 12\n" == [' '] + ("12" + "" + "\n");
    assert Blank("") && Blank("\n");
    StripFramed(' ', "12", "", "\n");
    assert !IsSpace("12"[1]);
    assert TrimRight("12") == "12";
  }

  lemma ParseSignedTwelve()
    ensures ParseSigned("12") == Some(12)
  {
    IntToStringTwelve();
    ParseSignedOfNonNegative(12);
  }

  /** Surrounding whitespace is ignored. */
  lemma ParseIntPaddedDigits()
    ensures ParseInt(" 12\n") == Some(12)
  {
    assert forall i :: 0 <= i < |" 12\n"| ==> !IsInfoSeparator(" 12\n"[i]);
    StripPaddedTwelve();
    ParseSignedTwelve();
  }

  lemma ParseSignedRejectsRoman()
    ensures ParseSigned("iv") == None
  {
    assert !IsDigit('i');
  }

  /** A roman-numeral page label is rejected. */
  lemma ParseIntRejectsRoman()
    ensures ParseInt("iv") == None
  {
    assert !IsInfoSeparator('i') && !IsInfoSeparator('v');
    assert !HasInfoSeparator("iv");
    StripUnchanged("iv");
    ParseSignedRejectsRoman();
  }

  /** `int("\x1c3")` raises although `"\x1c3".strip()` is `"3"`. */
  lemma ParseIntRejectsInfoSeparator()
    ensures Strip("\U{1C}3") == "3"
    ensures ParseInt("\U{1C}3") == None
  {
    assert "\U{1C}3" == ['\U{1C}'] + ("3" + "" + "");
    StripFramed('\U{1C}', "3", "", "");
    assert IsInfoSeparator("\U{1C}3"[0]);
  }

  /** Python's `s[:n]` for `n >= 0`: the first `min(n, |s|)` characters. */
  function Take(s: string, n: nat): (r: string)
    ensures |r| == if |s| < n then |s| else n
    ensures r == s[..|r|]
  {
    if |s| <= n then s else s[..n]
  }

  // ---------------------------------------------------------------------------
  // Joining and splitting lines
  // ---------------------------------------------------------------------------

  /** Python's `sep.join(parts)` for a one-character separator. */
  function Join(parts: seq<string>, sep: char): string
    decreases |parts|
  {
    if |parts| == 0 then ""
    else if |parts| == 1 then parts[0]
    else parts[0] + [sep] + Join(parts[1..], sep)
  }

  /** Python's `s.split(sep)` for a one-character separator: the pieces between
      consecutive separators, always at least one. */
  function Split(s: string, sep: char): (r: seq<string>)
    ensures |r| >= 1
    ensures forall i :: 0 <= i < |r| ==> sep !in r[i]
    decreases |s|
  {
    if |s| == 0 then [""]
    else
      var rest := Split(s[1..], sep);
      if s[0] == sep then [""] + rest
      else [[s[0]] + rest[0]] + rest[1..]
  }

  /** The joined text starts with the first part. */
  lemma JoinStartsWithFirst(parts: seq<string>, sep: char)
    requires |parts| >= 1
    ensures parts[0] <= Join(parts, sep)
  {
    if |parts| > 1 {
      assert Join(parts, sep) == parts[0] + ([sep] + Join(parts[1..], sep));
    }
  }

  lemma {:induction false} SplitWithoutSeparator(a: string, sep: char)
    requires sep !in a
    ensures Split(a, sep) == [a]
    decreases |a|
  {
    if |a| > 0 {
      SplitWithoutSeparator(a[1..], sep);
      assert [a[0]] + a[1..] == a;
    }
  }

  lemma {:induction false} SplitAtFirstSeparator(a: string, sep: char, b: string)
    requires sep !in a
    ensures Split(a + [sep] + b, sep) == [a] + Split(b, sep)
    decreases |a|
  {
    var s := a + [sep] + b;
    if |a| == 0 {
      assert s[1..] == b;
    } else {
      assert s[1..] == a[1..] + [sep] + b;
      SplitAtFirstSeparator(a[1..], sep, b);
      assert [a[0]] + a[1..] == a;
    }
  }

  /** Splitting joined lines gives the lines back when none contains the separator. */
  lemma {:induction false} SplitJoin(parts: seq<string>, sep: char)
    requires |parts| >= 1
    requires forall i :: 0 <= i < |parts| ==> sep !in parts[i]
    ensures Split(Join(parts, sep), sep) == parts
    decreases |parts|
  {
    if |parts| == 1 {
      SplitWithoutSeparator(parts[0], sep);
    } else {
      SplitJoin(parts[1..], sep);
      SplitAtFirstSeparator(parts[0], sep, Join(parts[1..], sep));
      assert [parts[0]] + parts[1..] == parts;
    }
  }

  /** `sub` occurs in `s` at some position. */
  predicate IsInfix(sub: string, s: string) {
    exists i :: 0 <= i <= |s| && sub <= s[i..]
  }

  lemma InfixOfConcat(pre: string, sub: string, post: string)
    ensures IsInfix(sub, pre + sub + post)
  {
    var s := pre + sub + post;
    assert s[|pre|..] == sub + post;
    assert sub <= s[|pre|..];
  }

  lemma InfixTransitive(a: string, b: string, c: string)
    requires IsInfix(a, b) && IsInfix(b, c)
    ensures IsInfix(a, c)
  {
    var i :| 0 <= i <= |b| && a <= b[i..];
    var j :| 0 <= j <= |c| && b <= c[j..];
    assert forall k :: 0 <= k < |a| ==> a[k] == b[i + k] == c[j + i + k];
    assert a <= c[j + i..];
  }

  /** An infix stays an infix when text is added on either side. */
  lemma InfixExtend(sub: string, s: string, more: string)
    requires IsInfix(sub, s)
    ensures IsInfix(sub, s + more) && IsInfix(sub, more + s)
  {
    var i :| 0 <= i <= |s| && sub <= s[i..];
    assert sub <= (s + more)[i..];
    assert sub <= (more + s)[|more| + i..];
  }

  /** A string is an infix of anything it ends. */
  lemma InfixEnd(pre: string, sub: string)
    ensures IsInfix(sub, pre + sub)
  {
    assert (pre + sub)[|pre|..] == sub;
  }
}

=== FILE: seqs.dfy ===
/** Order-preserving selection from sequences (Python list comprehensions with an `if`). */
module Seqs {
  import opened Wrappers

  /** `[x for x in s if p(x)]`. */
  function Filter<T>(p: T -> bool, s: seq<T>): (r: seq<T>)
    ensures |r| <= |s|
    ensures forall i :: 0 <= i < |r| ==> p(r[i])
    ensures forall x :: x in r ==> x in s
    decreases |s|
  {
    if |s| == 0 then []
    else if p(s[0]) then [s[0]] + Filter(p, s[1..])
    else Filter(p, s[1..])
  }

  /** `a` can be obtained from `b` by deleting elements (order kept). */
  predicate IsSubsequence<T(==)>(a: seq<T>, b: seq<T>)
    decreases |b|
  {
    || |a| == 0
    || (&& |b| > 0
        && if a[0] == b[0] then IsSubsequence(a[1..], b[1..]) else IsSubsequence(a, b[1..]))
  }

  /** Filtering keeps exactly the elements that pass, as often as they occur,
      and in their original order. */
  lemma {:induction false} FilterSpec<T>(p: T -> bool, s: seq<T>)
    ensures forall x :: multiset(Filter(p, s))[x] == if p(x) then multiset(s)[x] else 0
    ensures IsSubsequence(Filter(p, s), s)
    decreases |s|
  {
    if |s| > 0 {
      FilterSpec(p, s[1..]);
      assert s == [s[0]] + s[1..];
      assert multiset(s) == multiset{s[0]} + multiset(s[1..]);
      var r := Filter(p, s);
      if !p(s[0]) && |r| > 0 {
        assert r[0] != s[0];
      }
    }
  }

  /** Filtering distributes over concatenation. */
  lemma {:induction false} FilterAppend<T>(p: T -> bool, a: seq<T>, b: seq<T>)
    ensures Filter(p, a + b) == Filter(p, a) + Filter(p, b)
    decreases |a|
  {
    if |a| > 0 {
      assert (a + b)[1..] == a[1..] + b;
      FilterAppend(p, a[1..], b);
    } else {
      assert a + b == b;
    }
  }

  /** Filtering keeps two elements that both pass. */
  lemma FilterKeepsPair<T>(p: T -> bool, a: T, b: T)
    requires p(a) && p(b)
    ensures Filter(p, [a, b]) == [a, b]
  {
    assert [a, b][1..] == [b];
    assert [b][1..] == [];
    assert Filter(p, [b]) == [b];
  }

  /** `[y for x in s if (y := f(x)) is not None]`: the results of `f` that exist. */
  function MapSome<T, U>(f: T -> Option<U>, s: seq<T>): (r: seq<U>)
    ensures |r| <= |s|
    decreases |s|
  {
    if |s| == 0 then []
    else
      var rest := MapSome(f, s[1..]);
      if f(s[0]).Some? then [f(s[0]).value] + rest else rest
  }

  /** When `p` says where `f` has a result, the results are those of the
      elements that pass `p`, one each, in order. */
  lemma {:induction false} MapSomeSpec<T, U>(f: T -> Option<U>, p: T -> bool, s: seq<T>)
    requires forall x :: f(x).Some? <==> p(x)
    ensures |MapSome(f, s)| == |Filter(p, s)|
    ensures forall i :: 0 <= i < |MapSome(f, s)| ==> Some(MapSome(f, s)[i]) == f(Filter(p, s)[i])
    decreases |s|
  {
    if |s| > 0 {
      MapSomeSpec(f, p, s[1..]);
      if p(s[0]) {
        assert Filter(p, s) == [s[0]] + Filter(p, s[1..]);
      }
    }
  }

  /** Each element is mapped on its own: `MapSome` distributes over concatenation. */
  lemma {:induction false} MapSomeAppend<T, U>(f: T -> Option<U>, a: seq<T>, b: seq<T>)
    ensures MapSome(f, a + b) == MapSome(f, a) + MapSome(f, b)
    decreases |a|
  {
    if |a| > 0 {
      assert (a + b)[1..] == a[1..] + b;
      MapSomeAppend(f, a[1..], b);
    } else {
      assert a + b == b;
    }
  }

  /** Nothing results exactly when `f` has no result anywhere. */
  lemma {:induction false} MapSomeEmpty<T, U>(f: T -> Option<U>, s: seq<T>)
    ensures MapSome(f, s) == [] <==> forall i :: 0 <= i < |s| ==> f(s[i]).None?
    decreases |s|
  {
    if |s| > 0 {
      MapSomeEmpty(f, s[1..]);
      assert forall i :: 1 <= i < |s| ==> s[i] == s[1..][i - 1];
    }
  }
}

=== FILE: wrappers.dfy ===
/** Failure-compatible wrappers shared by every module of the model. */
module Wrappers {

  /** A value that may be missing (Python's `Optional[...]` / `None`). */
  datatype Option<+T> = None | Some(value: T)

  /** The outcome of an operation that either returns a value or raises. */
  datatype Result<+T, +E> = Success(value: T) | Failure(error: E)
}
